=== FILE: README.md ===
# SpreadBox core, modelled in Dafny

SpreadBox spreads function calls over a set of "boxes". A box is a named node.
It holds a registry of callable values and runs those values when a call comes in.
Boxes find each other on the network and are gathered into groups.
This project models the part of SpreadBox that decides what happens.
It models five things:

- **Values** (`values.dfy`): the Python values that move through the system.
  These are None, booleans, integers, strings, lists, dicts, callables, box and
  resource references, and exception objects. The module also holds
  `Option`/`Result` and Python truthiness.
- **Queries** (`queries.dfy`): the message codec.
  - The `query` decorator stamps `type` and `request` onto a payload, last, so
    they win over payload keys of the same name.
  - Each `QueryMaker` builder is a function with the payload keys and values it
    produces.
  - `QueryReader` is a class that holds one query. Its accessors are functions
    that read it. `morph` is a method that updates the held query in place.
- **Boxes** (`boxes.dfy`): a local `Box`.
  - Its state is the registry (`envGlobals`), the id counter, and the table of
    pending asynchronous results.
  - Pure functions on `BoxState` specify `call`, `callasync`, `resource`,
    `box[k]` and `managerMessage`.
  - The class `Box` carries the same fields. Each of its methods is proved to
    move from `old(State())` to exactly what the specification function gives.
  - `IBox.__eq__` is modelled as written.
- **Groups** (`groups.dfy`): `BoxGroup`.
  - It covers equality with None, `filter`, `members`, `set`, `call`,
    `callasync` and `spread`.
  - `spread` picks the live boxes, sorts them by load (a stable sort), and deals
    the functions round robin.
  - `filter`, `members`, `set`, `call` and `callasync` are loops in the
    source and methods with loop invariants here. The loop of `spread` is the
    method `Deal`, which `Spread` calls. Equality with None has no loop and is
    a function.
  - `spread` is specified by pure functions: the deal order `Order`, the
    registration fold `Assigned` and the result list `Results`.
- **Discovery** (`discovery.dfy`): `Box.seek` and `Box.network`.
  - The model computes the endpoints they probe and the group they return.
  - The network probe itself is a parameter.
  - This includes the /24 prefix computed from the host's address, proved to be
    the address up to its last dot. It also includes the 256 candidates
    `prefix + str(k)`, proved pairwise distinct.

Things the model takes as parameters instead of implementing:

- `Interp` gives what a stored callable returns or raises. A callable does not
  see or change the box it runs on (see "Left out").
- `Codec` is the value codec, `get_value_query` and `eval_from_query`.
- `Probe` stands for `netMap`.
- Group members record their name, liveness (`on()`), load (`overload()`) and
  box state.

## Model

| member | source | states |
|---|---|---|
| Queries.Stamp | spreadbox/core/queries.py:14-24 | the decorated builder's result has exactly its payload keys plus `type` and `request`, with the decorator's tag and flag; those two win over payload keys of the same name; every other payload value is kept |
| Values.Truthy | spreadbox/core/box.py:107 | Python truthiness, as `if delete:` reads it: false exactly for None, False, 0, and the empty string, sequence and dict |
| Queries.Ok | spreadbox/core/queries.py:27-29 | tagged `ok`, not a request, no payload |
| Queries.Name | spreadbox/core/queries.py:31-33 | tagged `name`, not a request, `value` is the name |
| Queries.NameReq | spreadbox/core/queries.py:35-37 | tagged `name` with `request = False` (its decorator passes no flag), no payload |
| Queries.GlobalSetReq | spreadbox/core/queries.py:39-41 | tagged `global_set`, a request, carrying `id` and `value` |
| Queries.GlobalGet | spreadbox/core/queries.py:43-45 | tagged `global_get`, not a request, carrying `id` and `value` |
| Queries.GlobalGetReq | spreadbox/core/queries.py:47-49 | tagged `global_get`, a request, carrying `id` |
| Queries.FunctionReq | spreadbox/core/queries.py:51-53 | tagged `function`, a request, `id` is the name and `value` the code |
| Queries.CallReq | spreadbox/core/queries.py:55-57 | a keyword argument `name` raises TypeError; otherwise tagged `call`, a request, `args` the positional arguments as a tuple, `kwargs` the keyword arguments as a dict |
| Queries.Call | spreadbox/core/queries.py:59-61 | tagged `call`, not a request, carrying `id` and `value` |
| Queries.TypeIs | spreadbox/core/queries.py:68-71 | comparing a query with a string is true exactly when its `type` is that string; a query without `type` raises KeyError |
| Queries.TaggedReadsAsTag | spreadbox/core/queries.py:14-24 | a query stamped with a tag compares equal to that tag and to no other string |
| Queries.BuildersReadAsTheirTag | spreadbox/core/queries.py:27-71 | every builder's output compares equal to its own tag and to no other string (for `call_req`, whenever it builds) |
| Queries.NameRequestLooksLikeAnswer | spreadbox/core/queries.py:31-37 | `name_req` and `name` carry the same `type` and the same `request = False`; they differ only in `value` |
| Queries.QueryReader.constructor | spreadbox/core/queries.py:65-66 | the reader holds the given query |
| Queries.QueryReader.Equals | spreadbox/core/queries.py:68-71 | against a string, compares the `type` field (KeyError if it is missing); against any other object, false |
| Queries.QueryReader.Contains | spreadbox/core/queries.py:73-74 | `item in reader` exactly when the held query has the key |
| Queries.QueryReader.Get | spreadbox/core/queries.py:76-77 | `reader[item]` is the held value, or KeyError(item) when it is missing |
| Queries.QueryReader.GetValue | spreadbox/core/queries.py:79-80 | succeeds exactly when `value` is present, and gives it |
| Queries.QueryReader.GetId | spreadbox/core/queries.py:82-83 | succeeds exactly when `id` is present, and gives it |
| Queries.QueryReader.AsQuery | spreadbox/core/queries.py:90-91 | `reader.query()` is the dictionary that `in` and item access read: same keys, same values, KeyError for the rest |
| Queries.QueryReader.Morph | spreadbox/core/queries.py:85-91 | a keyword argument `self` raises TypeError and writes nothing; otherwise returns the reader itself, and the held query afterwards has the old keys plus the given ones, each given key holds its new value, every other key is unchanged |
| Queries.ReaderRetrievesCallReqFields | spreadbox/core/queries.py:55-83 | a reader over a `call_req` query equals `call` and retrieves its `id`, `args` and `kwargs`; `value()` fails |
| Boxes.Invoke | spreadbox/core/box.py:84-89 | the body of `call`: a missing name yields KeyError(name), a non-callable entry yields TypeError, and otherwise the function's return value or raised exception is the result; a self-bound function gets a reference to the box as first argument |
| Boxes.KeywordsBind | spreadbox/core/box.py:83-91 | the arguments of `call(self, name, *args, **kwargs)` and `callasync` bind exactly when no keyword argument is named `self` or `name` |
| Boxes.CallBox | spreadbox/core/box.py:83-89 | `call` as its caller sees it: it raises TypeError exactly when a keyword argument is named `self` or `name`, and otherwise gives what the body gives |
| Boxes.StartCall | spreadbox/core/box.py:91-98 | `callasync`: the handle's id is the counter before the call, the counter goes up by one, the registry is unchanged, exactly that id gains a slot holding what `call` gives, and all other slots are unchanged |
| Boxes.TakeResult | spreadbox/core/box.py:100-110 | `resource`: an unknown id yields None and changes nothing; a pending value is yielded and then deleted or left drained according to `delete`; a drained slot polls forever |
| Boxes.LookupItem | spreadbox/core/box.py:115-116 | `box[k]` succeeds exactly when `k` is registered, with its value; otherwise KeyError(k) |
| Boxes.Unpack | spreadbox/core/box.py:134-141 | `*query['args'], **query['kwargs']` read left to right: a missing `args` raises KeyError, then a non-sequence raises TypeError, then a missing `kwargs` raises KeyError, then a non-dict raises TypeError; otherwise the two are unpacked |
| Boxes.ResourceKey | spreadbox/core/box.py:102 | `id in self.resources`: an integer is its own key, `True` and `False` are 1 and 0, a list or dict raises TypeError, any other value matches nothing |
| Boxes.ResourceOf | spreadbox/core/box.py:100-110 | `resource(id, delete)` for any id and `delete` value: an unhashable id raises and changes nothing, an id that cannot match yields None, and otherwise it is `TakeResult` on the key with the truth of `delete` |
| Boxes.BoolIdFindsSlotOne | spreadbox/core/box.py:102 | `resource(True, d)` reads slot 1 and `resource(False, d)` slot 0 |
| Boxes.Dispatch | spreadbox/core/box.py:118-145 | `managerMessage`, branch by branch: no `type` raises KeyError; `name`, `on` and `overload` answer the box's own values; `get` answers with the encoded stored value written into the query, or raises KeyError; a complete `set` stores the decoded value and answers ok; `call` answers with the encoded `CallBox` result or raises its error; `callasync` reads `id`, then the arguments, raises when they do not bind, and otherwise starts the call and answers with the old counter; `resource` reads `id`, then `delete`, and goes through `ResourceOf`, blocking on a drained slot; missing fields of `get`, `set` and `call` are logged; an unknown type is ignored; only an answered `set`, `callasync` or `resource` changes the state, each only its own part (stored callables cannot change it, see "Left out") |
| Boxes.CallAsyncNeverReusesIds | spreadbox/core/box.py:91-98 | two successive `callasync` calls hand out fresh, strictly increasing ids and keep every table id below the counter |
| Boxes.AsyncRoundTrip | spreadbox/core/box.py:91-110 | `callasync` then `resource(id, True)` yields what `call` gives and restores the result table |
| Boxes.DeletedResourceIsGone | spreadbox/core/box.py:100-110 | after a read with `delete`, the same id yields None |
| Boxes.KeptResourceIsDrained | spreadbox/core/box.py:100-110 | after a read without `delete`, the entry stays but a second read never returns |
| Boxes.DispatchKeepsIdsFresh | spreadbox/core/box.py:118-145 | answering any query keeps every pending id below the counter |
| Boxes.DispatchAsyncRoundTrip | spreadbox/core/box.py:139-145 | a `callasync` query answered with id n, then a `resource` query for n with `delete` set, answers with the encoding of what the call gave and restores the result table |
| Boxes.SetThenGet | spreadbox/core/box.py:126-133 | a complete `set` followed by a `get` of the same id answers with the encoding of the stored value, written into the received query, and changes nothing |
| Boxes.SameBox | spreadbox/core/box.py:54-56 | `a == b` holds only when `b` is a local Box, and then exactly when the names agree |
| Boxes.SameBoxAsymmetry | spreadbox/core/box.py:54-56 | box equality is symmetric only between local boxes; a remote proxy is not equal to itself, but a local box named like it is equal to it in one direction only |
| Boxes.Box.constructor | spreadbox/core/box.py:76-81 | a new box starts with the shared functions, counter 0 and no pending results |
| Boxes.Box.Call | spreadbox/core/box.py:83-89 | `box.call(...)` changes nothing and gives exactly `CallBox` on the box's registry |
| Boxes.Box.CallAsync | spreadbox/core/box.py:91-98 | a keyword argument named `self` or `name` raises and changes nothing; otherwise the new state and handle are exactly `StartCall` of the old state, and the id was not in the table |
| Boxes.Box.Resource | spreadbox/core/box.py:100-110 | the new state and result are exactly `ResourceOf` of the old state |
| Boxes.Box.SetItem | spreadbox/core/box.py:112-113 | only the registry changes, at `k`, to `v` |
| Boxes.Box.GetItem | spreadbox/core/box.py:115-116 | agrees with `LookupItem` on the current state |
| Boxes.Box.ManagerMessage | spreadbox/core/box.py:118-145 | reading the query through a `QueryReader`, the new state and handling are exactly `Dispatch` of the old state, and ids stay fresh |
| Groups.Shape | spreadbox/core/box.py:249 | a scalar exactly when there is one result, otherwise the whole list |
| Groups.CallOn | spreadbox/core/box.py:248 | one member's `call` once the arguments bind: what `CallBox` gives on that member's registry |
| Groups.SetItemOn | spreadbox/core/box.py:243 | `x[k] = v`: the member's registry gets `k` set to `v`, nothing else changes |
| Groups.KeepNamed | spreadbox/core/box.py:224-229 | the kept members are exactly those of the group whose name passes the filter |
| Groups.Minus | spreadbox/core/box.py:229 | `self -= ln`: exactly the members not in `ln`, never more than before |
| Groups.MinusFailuresKeepsPasses | spreadbox/core/box.py:224-229 | removing the collected failures (`self -= ln`) leaves exactly the members that pass |
| Groups.Eligible | spreadbox/core/box.py:262 | the positions of exactly the live members, in group order, each once |
| Groups.Insert | spreadbox/core/box.py:265 | one insertion step of the sort adds exactly the new position |
| Groups.ByLoad | spreadbox/core/box.py:265 | the sort permutes the positions it is given |
| Groups.InsertKeepsSorted | spreadbox/core/box.py:265 | inserting into a load-sorted list keeps it sorted |
| Groups.ByLoadSorted | spreadbox/core/box.py:265 | the sorted positions ascend by load |
| Groups.InsertWithLoad | spreadbox/core/box.py:265 | inserting a position keeps the relative order of the positions with any one load |
| Groups.ByLoadStable | spreadbox/core/box.py:265 | the sort is stable: positions of equal load keep group order |
| Groups.DistinctOnce | spreadbox/core/box.py:262 | every live position occurs once in the eligible list |
| Groups.OrderIsLiveMembersByLoad | spreadbox/core/box.py:262-265 | the deal order holds every live member exactly once and no other member, ascends by load, and is stable |
| Groups.Order | spreadbox/core/box.py:262-265 | the deal order is a list of positions in the group |
| Groups.FirstTargetIsLeastLoaded | spreadbox/core/box.py:262-270 | the first function goes to a live box no other live box undercuts in load |
| Groups.DealOrderExample | spreadbox/core/box.py:262-270 | three live boxes with loads 5, 1, 3 are dealt to in the order 1, 2, 0 |
| Groups.AllLiveAreEligible | spreadbox/core/box.py:262 | with three live boxes every position is eligible, in order |
| Groups.FunctionList | spreadbox/core/box.py:259-261 | a single wrapper becomes a one-element list; a list of wrappers is taken as it is |
| Groups.Register | spreadbox/core/box.py:270 | `boxes[t][fn.name] = fn`: the target's registry gets the function under its name; every other member is unchanged |
| Groups.Assigned | spreadbox/core/box.py:267-270 | registering the first k functions keeps the group's size |
| Groups.AssignedKeepsRouting | spreadbox/core/box.py:267-270 | registration changes no member's name, liveness, load, counter or pending results |
| Groups.AssignedDelivers | spreadbox/core/box.py:267-270 | function i ends up registered under its name on box `i mod n` of the deal order, unless a later function with that name goes to the same box |
| Groups.AssignedKeepsOtherEntries | spreadbox/core/box.py:267-270 | a member's registry entry under a key that no function dealt to it carries as its name is present and valued exactly as before |
| Groups.AssignedLeavesOthers | spreadbox/core/box.py:267-270 | a member outside the deal order is untouched |
| Groups.Results | spreadbox/core/box.py:271-273 | one result per function |
| Groups.FirstUnbound | spreadbox/core/box.py:272 | the first wrapper whose keyword arguments do not bind to `call`; every earlier one binds |
| Groups.Handled | spreadbox/core/box.py:267-273 | the loop handles every function, or stops right after the first call that does not bind |
| Groups.SpreadStep | spreadbox/core/box.py:267-273 | one loop round registers function i and then calls it on the same box, producing the i-th result; in mode 2 that result is the function's own result |
| Groups.Entries | spreadbox/core/box.py:240-243 | the keyword arguments as registry entries: exactly their names, with their values |
| Groups.WithOneMoreItem | spreadbox/core/box.py:240-243 | storing one more keyword argument extends the stored set by that key |
| Groups.EntriesOneMore | spreadbox/core/box.py:240-243 | the entries of one more keyword argument are the old entries updated at that key |
| Groups.OverlayUpdate | spreadbox/core/box.py:240-243 | updating the overlay at a key is updating the overlaid registry at that key |
| Groups.CallEach | spreadbox/core/box.py:246-248 | one `call` result per member, in group order |
| Groups.StartOne | spreadbox/core/box.py:254 | one member after its `callasync`: its counter goes up by one, its table gains the old counter holding what `call` gives, other slots and the registry stay, and its name, liveness and load stay |
| Groups.StartEach | spreadbox/core/box.py:252-254 | each member after its own `callasync`: its state is exactly `StartCall` of its old state (so the new slot holds what `call` gives and the other slots keep theirs); its counter goes up by one and its table gains the old counter; name, liveness, load and registry stay |
| Groups.HandlesOf | spreadbox/core/box.py:252-254 | one handle per member, naming the member and its counter before the call |
| Groups.WithItems | spreadbox/core/box.py:240-243 | a member after storing every keyword argument: each is stored under its name, every other registry entry stays, and no other field changes |
| Groups.BoxGroup.constructor | spreadbox/core/box.py:219 | a group holds the given members |
| Groups.BoxGroup.EqualsNone | spreadbox/core/box.py:220-222 | a group equals None exactly when it is empty |
| Groups.BoxGroup.Filter | spreadbox/core/box.py:224-229 | afterwards the group holds exactly the members whose name passes, in their order |
| Groups.BoxGroup.Members | spreadbox/core/box.py:234-238 | the map's keys are the members' names; a name maps to its last member |
| Groups.BoxGroup.Set | spreadbox/core/box.py:240-243 | a keyword argument `self` raises TypeError and changes no member; otherwise every member's registry afterwards holds every keyword argument, nothing else changes, and the call gives None |
| Groups.BoxGroup.SetItemEach | spreadbox/core/box.py:242-243 | `for x in self: x[k] = v`: the group keeps its size and every member afterwards is the old member with `k` set to `v` |
| Groups.BoxGroup.Call | spreadbox/core/box.py:245-249 | a keyword argument named `self` or `name` raises; otherwise every member's `call` result, in group order, shaped to a scalar for a one-member group |
| Groups.BoxGroup.CallAsync | spreadbox/core/box.py:251-255 | a keyword argument named `self` or `name` raises and changes nothing; otherwise every member starts the call and the answer holds their handles, shaped likewise |
| Groups.BoxGroup.Spread | spreadbox/core/box.py:257-277 | mode is taken modulo 3; with no live box it raises and changes nothing; otherwise the group becomes the registration fold (unless mode 1) over the functions the loop handled; a call whose keyword arguments do not bind raises after its registration; otherwise the answer is None in mode 0, the one result for a single wrapper, and the list of results otherwise |
| Groups.BoxGroup.Deal | spreadbox/core/box.py:266-273 | the loop registers (unless mode 1) and calls (unless mode 0) function i on box `i mod n` of the deal order; it stops with TypeError at the first call that does not bind, and otherwise collects exactly `Results` |
| Discovery.AddressesOf | spreadbox/core/box.py:155-157 | a single address becomes a one-element list |
| Discovery.Zip | spreadbox/core/box.py:160 | pairs address i with port i |
| Discovery.Broadcast | spreadbox/core/box.py:160 | pairs every address with the one port, in order |
| Discovery.SeekEndpoints | spreadbox/core/box.py:155-160 | a port tuple of the wrong length raises; otherwise one endpoint per address, in order, with its own port or the shared one |
| Discovery.Seek | spreadbox/core/box.py:152-162 | the length check comes first, then a rate of 0 raises ZeroDivisionError; otherwise the answering boxes, or None when none answered |
| Discovery.Split | spreadbox/core/box.py:168 | `split('.')` gives at least one piece and no piece holds a dot |
| Discovery.JoinSplit | spreadbox/core/box.py:168 | joining the pieces of a split with dots gives the string back |
| Discovery.JoinLast | spreadbox/core/box.py:168 | the last piece is joined to the rest by one dot |
| Discovery.Join | spreadbox/core/box.py:168 | `'.'.join`: the first piece starts the result, and two or more pieces put a dot in it |
| Discovery.Prefix | spreadbox/core/box.py:168 | the network prefix is never empty and ends with a dot |
| Discovery.PrefixUpToLastDot | spreadbox/core/box.py:168 | the prefix is the address up to and including its last dot, or "." when it has none |
| Discovery.Decimal | spreadbox/core/box.py:169 | `str(num)`: a non-empty string of decimal digits, one digit exactly for numbers below 10, and no leading zero otherwise |
| Discovery.Digit | spreadbox/core/box.py:169 | a digit below 10 is the character of that digit, which reads back as the digit |
| Discovery.ParseDecimal | spreadbox/core/box.py:169 | the decimal text of a number reads back as that number |
| Discovery.Candidates | spreadbox/core/box.py:169 | 256 addresses, the k-th being the prefix followed by `str(k)` |
| Discovery.CandidatesDistinct | spreadbox/core/box.py:169 | no two candidates are equal |
| Discovery.NetworkEndpoints | spreadbox/core/box.py:167-169 | 256 endpoints, the k-th being candidate k with the given port |
| Discovery.Network | spreadbox/core/box.py:164-172 | a rate of 0 raises; no answer gives None; otherwise the answering boxes, filtered by name when a filter is given, which may leave an empty group |

## Left out

- Threads and the result queue: the model runs the call when `callasync` starts it. The worker's value is the one `call` gives on the registry at that moment, so a registry change between the start and the thread's run is not modelled.
- The backoff `sleep` loop of `resource` is modelled only by its outcome: a value or `WaitsForever`.
- `RemoteBox`, `Box.get`, `netMap`, `ip()`, `Logger`, `ClientManager` and `protocol().write` are network or I/O. `netMap` is the `Probe` parameter. The host address is a `thisIp` string standing for `ip()[-1]`. A logged "Wrong request" is the `LoggedError` outcome.
- Group members are always local boxes. A `RemoteBox` member would forward `call`, `callasync` and item assignment over the network; those proxies are not modelled.
- The value codec (`get_value_query`, `eval_from_query`) and the behaviour of stored functions are parameters (`Codec`, `Interp`). Stored functions are assumed to terminate and to be deterministic: `Interp` always gives an outcome, and two runs with the same arguments give the same one. A Python function that never returns makes `call` hang, and one that depends on time or randomness can differ between runs, so `AsyncRoundTrip` and `DispatchAsyncRoundTrip` rely on this assumption.
- Boxes.Invoke: a stored callable runs without access to its box. `Interp` gives only a return value or an exception, and a self-bound function receives a `BoxRef` naming the box, not the box. In Python, `fn(self, ...)` gets the Box object itself and can read or change it, for example with `self[k] = v` or `self.callasync(...)`. The model does not capture such effects.
- Boxes.Dispatch: its promise that `get`, `call` and the other branches leave the box unchanged holds only under the limit on `Invoke` above.
- Boxes.Box.ManagerMessage: it is exactly `Dispatch`, so it has the same limit on what stored callables can do.
- Groups.BoxGroup.Call: it changes no member, and that holds only under the limit on `Invoke` above.
- Boxes.Box.Call: it changes nothing, and that holds only under the limit on `Invoke` above.
- `MetaBox` and `shared` are not modelled. The shared-method dictionary is the constructor's `shared` map.
- `BoxGroup.__str__` is not modelled: it only formats text.
- `BoxGroup` is a Python set, so its iteration order is the set's own order. The model holds a sequence, whose order stands for that iteration order. Deduplication by name (`IBox.__hash__`, `__eq__`) is not modelled.
- Equality of a group with another group (`Set.__eq__`) is not modelled; only the comparison with None is.
- Registry keys are any `Value`. For registry keys, unhashable keys and Python's `True == 1` aliasing are not modelled. Both are modelled for resource ids (`ResourceKey`).
- Boxes.ResourceKey: `List` stands for both lists and tuples. Every `List` id is treated as an unhashable list, so a tuple id, which Python would hash and match against no entry, raises TypeError here.
- TypeError messages: the messages of the model leave out the function and argument names Python prints. A map does not keep the order of the keyword arguments, so the model cannot tell which clashing one Python reports first.
- Boxes.Unpack: `*args` accepts only a list or tuple here. Any other iterable, such as a string or a dict, raises TypeError in the model, although Python would unpack it.
- Boxes.Dispatch: the reply of `name`, `on`, `overload`, `call`, `callasync` and `resource` is an abstract `Built(tag, fields)`. The box module imports `QueryMaker` from a data-processing package that is not part of this model. It uses builders (`on`, `overload`, `callasync`, `resource`, and a three-argument `call`) that `queries.py` does not define, so their shapes are unknown.
- Boxes.Dispatch: the `callasync` reply carries the handle's id for `res.resource`, because `resource.py` is not part of this model.
- Groups.Register: a `FunctionWrapper` is stored as a plain callable of its code. `function_wrapper.py` is not part of this model, so the model assumes that calling the stored wrapper with its own arguments runs its function.
- Queries.QueryReader.Morph: the reader holds its own copy of the query. In Python, `morph` also changes the caller's dict through aliasing; the model does not capture that.
- Discovery.Seek: the rate is an integer, and port lists that are not tuples are not modelled.
- Discovery.Seek: `Box.seek` builds its group with `RemoteBox` proxies in a set. The model returns the probe's members as they are.

## Where the code departs from its own conventions

The model follows the code in each case below.

- The docstring of spreadbox/core/queries.py:5-8 names requests `query_req`. Yet `name_req` is sent with `request = False`, because its decorator gives no flag (spreadbox/core/queries.py:35).
- The comment at spreadbox/core/box.py:52-53 says boxes with equal names are the same box. But `IBox.__eq__` holds only when the right-hand side is a local `Box` (spreadbox/core/box.py:55). So a `RemoteBox` is not equal even to itself.
- `Box.seek` avoids returning an empty group (the comment at spreadbox/core/box.py:162). But `Box.network` filters only after that check. A filter that rejects every box therefore returns an empty group, not None (spreadbox/core/box.py:170-172).
- `call` and `callasync` take the function's name as a parameter called `name` (spreadbox/core/box.py:83, 91). So a function with a keyword parameter `name` or `self` cannot be called through a box, a group or `spread` with that keyword: the call raises TypeError. In `spread` this happens after the function was already registered (spreadbox/core/box.py:270-272). Likewise `BoxGroup.set(**kwargs)` and `QueryReader.morph(**kwargs)` raise on a keyword argument `self`, and `QueryMaker.call_req` on a keyword argument `name` (spreadbox/core/box.py:240, spreadbox/core/queries.py:56, 85).
- In `managerMessage`, the `get`, `set` and `call` branches check for missing fields and log them. The `callasync` and `resource` branches do not check: a missing field raises KeyError (spreadbox/core/box.py:139-145).

=== FILE: boxes.dfy ===
/** A local Box: its function registry, its table of pending asynchronous
    results, and the server-side dispatcher that answers incoming queries.
    The pure functions on `BoxState` say what each operation does; the class
    `Box` performs them on its fields and is proved against them. */
module Boxes {
  import opened Values
  import opened Queries

  /** The single-slot result channel of one asynchronous call. The worker has
      filled it (`Filled`), or its one value has already been taken (`Drained`). */
  datatype Slot = Filled(v: Value) | Drained

  /** The mutable state of a Box: `envGlobals`, `idcounter` and `resources`. */
  datatype BoxState = BoxState(registry: map<Value, Value>, nextId: nat, resources: map<nat, Slot>)

  /** What the abstract `name()`, `on()` and `overload()` of a concrete Box report. */
  datatype BoxInfo = BoxInfo(name: string, on: bool, overload: int)

  /** A Resource handle: an id in the owner's table. */
  datatype ResourceHandle = ResourceHandle(id: nat, owner: string)

  /** What `resource` leaves its caller with: a value, or an endless poll. */
  datatype Poll = Yields(v: Value) | WaitsForever

  /** The value codec `get_value_query` / `eval_from_query`, which lies outside
      the model. */
  datatype Codec = Codec(encode: Value -> (Value, Value), decode: (Value, Value, map<Value, Value>) -> Value)

  /** A reply, kept abstract: a builder's type tag with the arguments it was
      given, or a received query written back after `morph`. */
  datatype Reply = Built(tag: string, fields: seq<Value>) | Morphed(q: Query)

  /** What one call of `managerMessage` does. */
  datatype Handling =
    | Wrote(reply: Reply)   // a reply is written on the connection
    | LoggedError           // "Wrong request" is logged, nothing is written
    | Ignored               // unknown type: nothing happens
    | Raised(exc: Value)    // an exception escapes to the connection loop
    | Blocked               // the handler never returns

  /** Every id in the table was handed out before: the counter is past it. */
  predicate IdsFresh(st: BoxState) {
    forall id :: id in st.resources ==> id < st.nextId
  }

  /** `Box.call`: look the name up and run what is there. A missing name, a
      value that is not callable, or an exception raised by the function is
      the result, never raised. A self-bound function gets the box first. */
  function Invoke(registry: map<Value, Value>, self: Value, fn: Value, args: seq<Value>,
                  kwargs: map<string, Value>, run: Interp): (r: Value)
    ensures fn !in registry ==> r == KeyError(fn)
    ensures fn in registry && !registry[fn].Func? ==> r == TypeError("object is not callable")
    ensures fn in registry && registry[fn].Func? ==>
              r == Settle(run(registry[fn].code, if registry[fn].useSelf then [self] + args else args, kwargs))
  {
    if fn !in registry then KeyError(fn)
    else
      match registry[fn]
      case Func(code, useSelf) => Settle(run(code, if useSelf then [self] + args else args, kwargs))
      case _ => TypeError("object is not callable")
  }

  /** `Box.callasync`: the id is the counter before the call, the counter moves
      on by one, and exactly that id gets a slot, holding the result `call`
      produces on the current registry. */
  function StartCall(st: BoxState, owner: string, fn: Value, args: seq<Value>,
                     kwargs: map<string, Value>, run: Interp): (r: (BoxState, ResourceHandle))
    ensures r.1 == ResourceHandle(st.nextId, owner)
    ensures r.0.nextId == st.nextId + 1 && r.0.registry == st.registry
    ensures r.0.resources.Keys == st.resources.Keys + {st.nextId}
    ensures r.0.resources[st.nextId] == Filled(Invoke(st.registry, BoxRef(owner), fn, args, kwargs, run))
    ensures forall id :: id in st.resources && id != st.nextId ==> r.0.resources[id] == st.resources[id]
  {
    var slot := Filled(Invoke(st.registry, BoxRef(owner), fn, args, kwargs, run));
    (st.(nextId := st.nextId + 1, resources := st.resources[st.nextId := slot]), ResourceHandle(st.nextId, owner))
  }

  /** `Box.resource`: an unknown id yields None and changes nothing. A filled
      slot yields its value, which is taken out of the slot; `delete` also
      removes the entry. A slot whose value was taken earlier is polled forever. */
  function TakeResult(st: BoxState, id: int, delete: bool): (r: (BoxState, Poll))
    ensures r.0.registry == st.registry && r.0.nextId == st.nextId
    ensures !(id >= 0 && id as nat in st.resources) ==> r == (st, Yields(NoneV))
    ensures id >= 0 && id as nat in st.resources && st.resources[id as nat].Drained? ==> r.1 == WaitsForever && r.0 == st
    ensures id >= 0 && id as nat in st.resources && st.resources[id as nat].Filled? ==>
              r.1 == Yields(st.resources[id as nat].v) &&
              r.0.resources == if delete then st.resources - {id as nat} else st.resources[id as nat := Drained]
  {
    if id < 0 || id as nat !in st.resources then (st, Yields(NoneV))
    else
      match st.resources[id as nat]
      case Drained => (st, WaitsForever)
      case Filled(v) =>
        var left := if delete then st.resources - {id as nat} else st.resources[id as nat := Drained];
        (st.(resources := left), Yields(v))
  }

  /** `box[k]`: a missing key raises KeyError. */
  function LookupItem(st: BoxState, k: Value): (r: Result<Value>)
    ensures k in st.registry <==> r.Success?
    ensures r.Success? ==> r.value == st.registry[k]
    ensures r.Failure? ==> r.exc == KeyError(k)
  {
    if k in st.registry then Success(st.registry[k]) else Failure(KeyError(k))
  }

  /** `call(self, name, *args, **kwargs)` and `callasync(self, name, ...)` bind
      `self` and `name` positionally, so a keyword argument with either name is
      given twice and Python raises TypeError before the method body runs. */
  predicate KeywordsBind(kwargs: map<string, Value>): (b: bool)
    ensures b <==> forall k :: k in kwargs ==> k != "self" && k != "name"
  {
    "self" !in kwargs && "name" !in kwargs
  }

  function NotIterable(): Value {
    TypeError("argument after * must be an iterable")
  }

  function NotMapping(): Value {
    TypeError("argument after ** must be a mapping")
  }

  function Unhashable(): Value {
    TypeError("unhashable type")
  }

  /** `box.call(name, *args, **kwargs)` as its caller sees it: the arguments are
      bound first, and only then does the body (`Invoke`) run. */
  function CallBox(registry: map<Value, Value>, self: Value, fn: Value, args: seq<Value>,
                   kwargs: map<string, Value>, run: Interp): (r: Result<Value>)
    ensures r.Failure? <==> !KeywordsBind(kwargs)
    ensures r.Failure? ==> r.exc == MultipleValues()
    ensures r.Success? ==> r.value == Invoke(registry, self, fn, args, kwargs, run)
  {
    if !KeywordsBind(kwargs) then Failure(MultipleValues())
    else Success(Invoke(registry, self, fn, args, kwargs, run))
  }

  /** Evaluating `*query['args'], **query['kwargs']` left to right: `args` is
      read and unpacked before `kwargs` is read. Only a list or tuple unpacks
      after `*`, only a dict after `**`. */
  function Unpack(msg: Query): (r: Result<(seq<Value>, map<string, Value>)>)
    ensures "args" !in msg ==> r == Failure(KeyError(Str("args")))
    ensures "args" in msg && !msg["args"].List? ==> r == Failure(NotIterable())
    ensures "args" in msg && msg["args"].List? && "kwargs" !in msg ==> r == Failure(KeyError(Str("kwargs")))
    ensures ("args" in msg && msg["args"].List? && "kwargs" in msg && !msg["kwargs"].Dict?) ==>
              r == Failure(NotMapping())
    ensures r.Success? <==> "args" in msg && msg["args"].List? && "kwargs" in msg && msg["kwargs"].Dict?
    ensures r.Success? ==> r.value == (msg["args"].items, msg["kwargs"].entries)
  {
    if "args" !in msg then Failure(KeyError(Str("args")))
    else if !msg["args"].List? then Failure(NotIterable())
    else if "kwargs" !in msg then Failure(KeyError(Str("kwargs")))
    else if !msg["kwargs"].Dict? then Failure(NotMapping())
    else Success((msg["args"].items, msg["kwargs"].entries))
  }

  /** The key `id in self.resources` looks up: a boolean hashes and compares
      like 0 or 1, a list or dict is unhashable and raises TypeError, and any
      other value that is not an integer matches no entry. */
  function ResourceKey(id: Value): (r: Result<Option<int>>)
    ensures id.Int? ==> r == Success(Some(id.i))
    ensures id.Bool? ==> r == Success(Some(if id.b then 1 else 0))
    ensures r.Failure? <==> id.List? || id.Dict?
    ensures r.Failure? ==> r.exc == Unhashable()
    ensures !(id.Int? || id.Bool? || id.List? || id.Dict?) ==> r == Success(None)
  {
    match id
    case Int(i) => Success(Some(i))
    case Bool(b) => Success(Some(if b then 1 else 0))
    case List(_) => Failure(Unhashable())
    case Dict(_) => Failure(Unhashable())
    case _ => Success(None)
  }

  /** `box.resource(id, delete)` for any id and any `delete` value: the id is
      looked up as `ResourceKey` says and `delete` is read for its truth. */
  function ResourceOf(st: BoxState, id: Value, delete: Value): (r: (BoxState, Result<Poll>))
    ensures ResourceKey(id).Failure? ==> r == (st, Failure(Unhashable()))
    ensures ResourceKey(id) == Success(None) ==> r == (st, Success(Yields(NoneV)))
    ensures ResourceKey(id).Success? && ResourceKey(id).value.Some? ==>
              r.0 == TakeResult(st, ResourceKey(id).value.value, Truthy(delete)).0 &&
              r.1 == Success(TakeResult(st, ResourceKey(id).value.value, Truthy(delete)).1)
  {
    match ResourceKey(id)
    case Failure(e) => (st, Failure(e))
    case Success(key) =>
      if key.None? then (st, Success(Yields(NoneV)))
      else
        var (st', p) := TakeResult(st, key.value, Truthy(delete));
        (st', Success(p))
  }

  /** The query's `type` is the given string. */
  predicate Is(msg: Query, tag: string) {
    "type" in msg && msg["type"] == Str(tag)
  }

  /** `managerMessage`: one inbound query, one transition. */
  function Dispatch(st: BoxState, me: BoxInfo, msg: Query, codec: Codec, run: Interp): (r: (BoxState, Handling))
    // a query without `type` cannot even be compared
    ensures "type" !in msg ==> r == (st, Raised(KeyError(Str("type"))))
    // only an answered `set`, `callasync` or `resource` changes the state
    ensures !r.1.Wrote? ==> r.0 == st
    ensures "type" in msg && !Is(msg, "set") ==> r.0.registry == st.registry
    ensures "type" in msg && !Is(msg, "callasync") ==> r.0.nextId == st.nextId
    ensures "type" in msg && !Is(msg, "callasync") && !Is(msg, "resource") ==> r.0.resources == st.resources
    // the box describes itself
    ensures Is(msg, "name") ==> r.1 == Wrote(Built("name", [Str(me.name)]))
    ensures Is(msg, "on") ==> r.1 == Wrote(Built("on", [Bool(me.on)]))
    ensures Is(msg, "overload") ==> r.1 == Wrote(Built("overload", [Int(me.overload)]))
    // `get`: the stored value, encoded and written into the received query
    ensures Is(msg, "get") && "id" !in msg ==> r == (st, LoggedError)
    ensures Is(msg, "get") && "id" in msg && msg["id"] !in st.registry ==> r == (st, Raised(KeyError(msg["id"])))
    ensures Is(msg, "get") && "id" in msg && msg["id"] in st.registry ==>
              var (ty, w) := codec.encode(st.registry[msg["id"]]);
              r == (st, Wrote(Morphed(msg["value_type" := ty]["value" := w])))
    // `set`: a complete query stores the decoded value under `id` and answers ok
    ensures (Is(msg, "set") && !("id" in msg && "value_type" in msg && "value" in msg)) ==> r == (st, LoggedError)
    ensures Is(msg, "set") && "id" in msg && "value_type" in msg && "value" in msg ==>
              r.1 == Wrote(Built("ok", [])) &&
              r.0 == st.(registry := st.registry[msg["id"] := codec.decode(msg["value_type"], msg["value"], st.registry)])
    // `call`: the encoded result of calling the named function
    ensures (Is(msg, "call") && !("id" in msg && "args" in msg && "kwargs" in msg)) ==> r == (st, LoggedError)
    ensures Is(msg, "call") && "id" in msg && "args" in msg && "kwargs" in msg && Unpack(msg).Failure? ==>
              r == (st, Raised(Unpack(msg).exc))
    ensures Is(msg, "call") && "id" in msg && Unpack(msg).Success? ==>
              var c := CallBox(st.registry, BoxRef(me.name), msg["id"], Unpack(msg).value.0, Unpack(msg).value.1, run);
              r == (st, if c.Failure? then Raised(c.exc)
                        else Wrote(Built("call", [msg["id"], codec.encode(c.value).0, codec.encode(c.value).1])))
    // `callasync`: starts the call and answers with the id it was given
    ensures Is(msg, "callasync") && "id" !in msg ==> r == (st, Raised(KeyError(Str("id"))))
    ensures Is(msg, "callasync") && "id" in msg && Unpack(msg).Failure? ==> r == (st, Raised(Unpack(msg).exc))
    ensures (Is(msg, "callasync") && "id" in msg && Unpack(msg).Success? && !KeywordsBind(Unpack(msg).value.1)) ==>
              r == (st, Raised(MultipleValues()))
    ensures (Is(msg, "callasync") && "id" in msg && Unpack(msg).Success? && KeywordsBind(Unpack(msg).value.1)) ==>
              r.0 == StartCall(st, me.name, msg["id"], Unpack(msg).value.0, Unpack(msg).value.1, run).0 &&
              r.1 == Wrote(Built("callasync", [msg["id"], Int(st.nextId)]))
    // `resource`: the pending result, through `ResourceOf`
    ensures Is(msg, "resource") && "id" !in msg ==> r == (st, Raised(KeyError(Str("id"))))
    ensures Is(msg, "resource") && "id" in msg && "delete" !in msg ==> r == (st, Raised(KeyError(Str("delete"))))
    ensures Is(msg, "resource") && "id" in msg && "delete" in msg ==>
              var (st', p) := ResourceOf(st, msg["id"], msg["delete"]);
              r == (if p.Failure? then (st, Raised(p.exc))
                    else if p.value.WaitsForever? then (st, Blocked)
                    else (st', Wrote(Built("resource", [msg["id"], codec.encode(p.value.v).0, codec.encode(p.value.v).1]))))
    // a type nobody handles gets no reply
    ensures ("type" in msg && msg["type"] !in {Str("name"), Str("on"), Str("overload"), Str("get"), Str("set"),
                                               Str("call"), Str("callasync"), Str("resource")}) ==> r == (st, Ignored)
  {
    if "type" !in msg then (st, Raised(KeyError(Str("type"))))
    else
      var t := msg["type"];
      if t == Str("name") then (st, Wrote(Built("name", [Str(me.name)])))
      else if t == Str("on") then (st, Wrote(Built("on", [Bool(me.on)])))
      else if t == Str("overload") then (st, Wrote(Built("overload", [Int(me.overload)])))
      else if t == Str("get") then
        if "id" !in msg then (st, LoggedError)
        else
          match LookupItem(st, msg["id"])
          case Failure(e) => (st, Raised(e))
          case Success(v) =>
            var (ty, w) := codec.encode(v);
            (st, Wrote(Morphed(msg["value_type" := ty]["value" := w])))
      else if t == Str("set") then
        if !("id" in msg && "value_type" in msg && "value" in msg) then (st, LoggedError)
        else
          var v := codec.decode(msg["value_type"], msg["value"], st.registry);
          (st.(registry := st.registry[msg["id"] := v]), Wrote(Built("ok", [])))
      else if t == Str("call") then
        if !("id" in msg && "args" in msg && "kwargs" in msg) then (st, LoggedError)
        else
          match Unpack(msg)
          case Failure(e) => (st, Raised(e))
          case Success(ak) =>
            match CallBox(st.registry, BoxRef(me.name), msg["id"], ak.0, ak.1, run)
            case Failure(e) => (st, Raised(e))
            case Success(answer) =>
              var (ty, w) := codec.encode(answer);
              (st, Wrote(Built("call", [msg["id"], ty, w])))
      else if t == Str("callasync") then
        if "id" !in msg then (st, Raised(KeyError(Str("id"))))
        else
          match Unpack(msg)
          case Failure(e) => (st, Raised(e))
          case Success(ak) =>
            if !KeywordsBind(ak.1) then (st, Raised(MultipleValues()))
            else
              var (st', res) := StartCall(st, me.name, msg["id"], ak.0, ak.1, run);
              (st', Wrote(Built("callasync", [msg["id"], Int(res.id)])))
      else if t == Str("resource") then
        if "id" !in msg then (st, Raised(KeyError(Str("id"))))
        else if "delete" !in msg then (st, Raised(KeyError(Str("delete"))))
        else
          var (st', p) := ResourceOf(st, msg["id"], msg["delete"]);
          match p
          case Failure(e) => (st, Raised(e))
          case Success(poll) =>
            match poll
            case WaitsForever => (st, Blocked)
            case Yields(v) =>
              var (ty, w) := codec.encode(v);
              (st', Wrote(Built("resource", [msg["id"], ty, w])))
      else (st, Ignored)
  }

  // ---------------------------------------------------------------------------
  // Properties of the state machine

  /** Handing out an id keeps ids fresh: the new id was never in the table,
      and ids handed out one after another strictly increase. */
  lemma CallAsyncNeverReusesIds(st: BoxState, owner: string, f: Value, g: Value,
                                args: seq<Value>, kwargs: map<string, Value>, run: Interp)
    requires IdsFresh(st)
    ensures var (st1, r1) := StartCall(st, owner, f, args, kwargs, run);
            var (st2, r2) := StartCall(st1, owner, g, args, kwargs, run);
            r1.id !in st.resources && r2.id !in st1.resources &&
            r1.id < r2.id && IdsFresh(st1) && IdsFresh(st2)
  {
  }

  /** `callasync` followed by `resource(id, delete=True)` gives what `call`
      gives, and leaves the table as it was before. */
  lemma AsyncRoundTrip(st: BoxState, owner: string, f: Value, args: seq<Value>,
                       kwargs: map<string, Value>, run: Interp)
    requires IdsFresh(st)
    ensures var (st1, res) := StartCall(st, owner, f, args, kwargs, run);
            var (st2, p) := TakeResult(st1, res.id, true);
            p == Yields(Invoke(st.registry, BoxRef(owner), f, args, kwargs, run)) &&
            st2.resources == st.resources && st2.registry == st.registry
  {
    var (st1, res) := StartCall(st, owner, f, args, kwargs, run);
    var (st2, p) := TakeResult(st1, res.id, true);
    assert st.nextId !in st.resources;
    assert st2.resources == st1.resources - {st.nextId};
    assert st2.resources == st.resources;
  }

  /** After `resource(id, delete=True)` a second `resource(id, _)` yields None. */
  lemma DeletedResourceIsGone(st: BoxState, id: int, again: bool)
    ensures var (st1, _) := TakeResult(st, id, true);
            TakeResult(st1, id, again).1 == Yields(NoneV) || TakeResult(st1, id, again).1 == WaitsForever
    ensures var (st1, _) := TakeResult(st, id, true);
            (id >= 0 && id as nat in st.resources && st.resources[id as nat].Filled?) ==>
              TakeResult(st1, id, again) == (st1, Yields(NoneV))
  {
  }

  /** After `resource(id, delete=False)` the entry stays, but its one value is
      gone: a second read of that id never returns. */
  lemma KeptResourceIsDrained(st: BoxState, id: nat, again: bool)
    requires id in st.resources && st.resources[id].Filled?
    ensures var (st1, _) := TakeResult(st, id, false);
            id in st1.resources && TakeResult(st1, id, again).1 == WaitsForever
  {
  }

  /** Answering queries keeps every id in the table below the counter. */
  lemma {:induction false} DispatchKeepsIdsFresh(st: BoxState, me: BoxInfo, msg: Query, codec: Codec, run: Interp)
    requires IdsFresh(st)
    ensures IdsFresh(Dispatch(st, me, msg, codec, run).0)
  {
    var r := Dispatch(st, me, msg, codec, run);
    if Is(msg, "callasync") && r.1.Wrote? {
      var ak := Unpack(msg).value;
      assert r.0 == StartCall(st, me.name, msg["id"], ak.0, ak.1, run).0;
    } else if Is(msg, "resource") && r.1.Wrote? && ResourceKey(msg["id"]).value.Some? {
      var key := ResourceKey(msg["id"]).value.value;
      assert r.0 == TakeResult(st, key, Truthy(msg["delete"])).0;
    }
  }

  /** A `callasync` query answered with an id, followed by a `resource` query
      for that id with `delete` set, answers with the encoding of what the call
      gave and leaves the table as it was before. */
  lemma DispatchAsyncRoundTrip(st: BoxState, me: BoxInfo, start: Query, fetch: Query, codec: Codec, run: Interp)
    requires IdsFresh(st)
    requires Is(start, "callasync") && "id" in start && Unpack(start).Success? && KeywordsBind(Unpack(start).value.1)
    requires Is(fetch, "resource") && "id" in fetch && "delete" in fetch
    requires fetch["id"] == Int(st.nextId) && Truthy(fetch["delete"])
    ensures var (st1, h1) := Dispatch(st, me, start, codec, run);
            var (st2, h2) := Dispatch(st1, me, fetch, codec, run);
            var v := Invoke(st.registry, BoxRef(me.name), start["id"], Unpack(start).value.0, Unpack(start).value.1, run);
            h1 == Wrote(Built("callasync", [start["id"], Int(st.nextId)])) &&
            h2 == Wrote(Built("resource", [Int(st.nextId), codec.encode(v).0, codec.encode(v).1])) &&
            st2.resources == st.resources && st2.registry == st.registry && st2.nextId == st.nextId + 1
  {
    var ak := Unpack(start).value;
    var st1 := StartCall(st, me.name, start["id"], ak.0, ak.1, run).0;
    AsyncRoundTrip(st, me.name, start["id"], ak.0, ak.1, run);
    assert Dispatch(st, me, start, codec, run).0 == st1;
    assert ResourceKey(fetch["id"]) == Success(Some(st.nextId));
  }

  /** `True` finds the slot of id 1, as `True == 1` in Python. */
  lemma BoolIdFindsSlotOne(st: BoxState, delete: Value)
    ensures ResourceOf(st, Bool(true), delete) == ResourceOf(st, Int(1), delete)
    ensures ResourceOf(st, Bool(false), delete) == ResourceOf(st, Int(0), delete)
  {
  }

  /** A well-formed `set` answered `ok` is seen by a later `get` of the same
      key: the reply carries the encoding of exactly the stored value. */
  lemma SetThenGet(st: BoxState, me: BoxInfo, setMsg: Query, getMsg: Query, codec: Codec, run: Interp)
    requires "type" in setMsg && setMsg["type"] == Str("set")
    requires "id" in setMsg && "value_type" in setMsg && "value" in setMsg
    requires "type" in getMsg && getMsg["type"] == Str("get")
    requires "id" in getMsg && getMsg["id"] == setMsg["id"]
    ensures var (st1, h1) := Dispatch(st, me, setMsg, codec, run);
            var stored := codec.decode(setMsg["value_type"], setMsg["value"], st.registry);
            var (st2, h2) := Dispatch(st1, me, getMsg, codec, run);
            h1 == Wrote(Built("ok", [])) &&
            LookupItem(st1, setMsg["id"]) == Success(stored) &&
            h2 == Wrote(Morphed(getMsg["value_type" := codec.encode(stored).0]["value" := codec.encode(stored).1])) &&
            st2 == st1
  {
  }

  // ---------------------------------------------------------------------------
  // Identity of boxes

  /** A reference to a box as `IBox.__eq__` sees it: a local `Box` or a
      `RemoteBox` proxy (told apart by its connection). */
  datatype BoxHandle = Local(name: string) | Remote(name: string, connection: nat)

  /** `a == b` for boxes: true only when `b` is a local Box with the same name,
      whatever `a` is. */
  function SameBox(a: BoxHandle, b: BoxHandle): (r: bool)
    ensures r ==> b.Local?
    ensures b.Local? ==> (r <==> a.name == b.name)
  {
    b.Local? && a.name == b.name
  }

  /** So this equality is symmetric only between local boxes, and a remote
      proxy is not even equal to itself. */
  lemma SameBoxAsymmetry(a: BoxHandle, b: BoxHandle)
    ensures SameBox(a, b) && SameBox(b, a) <==> a.Local? && b.Local? && a.name == b.name
    ensures SameBox(a, a) <==> a.Local?
    ensures a.Remote? && b.Local? && a.name == b.name ==> SameBox(a, b) && !SameBox(b, a)
  {
  }

  // ---------------------------------------------------------------------------
  // The Box object

  class Box {
    const info: BoxInfo
    const run: Interp
    const codec: Codec
    var envGlobals: map<Value, Value>
    var idCounter: nat
    var resources: map<nat, Slot>

    function State(): BoxState
      reads this
    {
      BoxState(envGlobals, idCounter, resources)
    }

    ghost predicate Valid()
      reads this
    {
      IdsFresh(State())
    }

    /** A new Box starts with its shared functions, counter 0 and no pending results. */
    constructor (info: BoxInfo, shared: map<Value, Value>, run: Interp, codec: Codec)
      ensures Valid()
      ensures this.info == info && this.run == run && this.codec == codec
      ensures State() == BoxState(shared, 0, map[])
    {
      this.info := info;
      this.run := run;
      this.codec := codec;
      envGlobals := shared;
      idCounter := 0;
      resources := map[];
    }

    /** `box.call(name, *args, **kwargs)`: changes nothing. */
    method Call(fn: Value, args: seq<Value>, kwargs: map<string, Value>) returns (r: Result<Value>)
      ensures r == CallBox(envGlobals, BoxRef(info.name), fn, args, kwargs, run)
    {
      if "self" in kwargs || "name" in kwargs {
        return Failure(MultipleValues());
      }
      var entry := LookupItem(State(), fn);
      if entry.Failure? {
        r := Success(KeyError(fn));
      } else if !entry.value.Func? {
        r := Success(TypeError("object is not callable"));
      } else {
        var f := entry.value;
        var outcome := run(f.code, if f.useSelf then [BoxRef(info.name)] + args else args, kwargs);
        r := Success(Settle(outcome));
      }
    }

    /** `box.callasync(name, *args, **kwargs)`: after the arguments bind, the
        call is started under a fresh id. */
    method CallAsync(fn: Value, args: seq<Value>, kwargs: map<string, Value>) returns (res: Result<ResourceHandle>)
      requires Valid()
      modifies this
      ensures Valid()
      ensures !KeywordsBind(kwargs) ==> res == Failure(MultipleValues()) && State() == old(State())
      ensures KeywordsBind(kwargs) ==>
                res.Success? && (State(), res.value) == StartCall(old(State()), info.name, fn, args, kwargs, run)
      ensures res.Success? ==> res.value.id == old(idCounter) && res.value.id !in old(resources)
    {
      if !KeywordsBind(kwargs) {
        return Failure(MultipleValues());
      }
      var id := idCounter;
      var answer := Invoke(envGlobals, BoxRef(info.name), fn, args, kwargs, run);
      resources := resources[id := Filled(answer)];
      idCounter := idCounter + 1;
      res := Success(ResourceHandle(id, info.name));
    }

    /** `box.resource(id, delete)` */
    method Resource(id: Value, delete: Value) returns (p: Result<Poll>)
      requires Valid()
      modifies this
      ensures Valid()
      ensures (State(), p) == ResourceOf(old(State()), id, delete)
    {
      var key := ResourceKey(id);
      if key.Failure? {
        return Failure(key.exc);
      }
      if key.value.None? {
        return Success(Yields(NoneV));
      }
      var k := key.value.value;
      if k >= 0 && k as nat in resources {
        match resources[k as nat]
        case Drained =>
          p := Success(WaitsForever);
        case Filled(v) =>
          resources := if Truthy(delete) then resources - {k as nat} else resources[k as nat := Drained];
          p := Success(Yields(v));
      } else {
        p := Success(Yields(NoneV));
      }
    }

    /** `box[k] = v` */
    method SetItem(k: Value, v: Value)
      requires Valid()
      modifies this
      ensures Valid()
      ensures State() == old(State()).(registry := old(envGlobals)[k := v])
    {
      envGlobals := envGlobals[k := v];
    }

    /** `box[k]` */
    function GetItem(k: Value): (r: Result<Value>)
      reads this
      ensures r == LookupItem(State(), k)
    {
      if k in envGlobals then Success(envGlobals[k]) else Failure(KeyError(k))
    }

    method ManagerMessage(message: Query) returns (out: Handling)
      requires Valid()
      modifies this
      ensures Valid()
      ensures (State(), out) == Dispatch(old(State()), info, message, codec, run)
    {
      var query := new QueryReader(message);
      if !query.Contains("type") {
        out := Raised(KeyError(Str("type")));
      } else if query.Equals(Str("name")) == Success(true) {
        out := Wrote(Built("name", [Str(info.name)]));
      } else if query.Equals(Str("on")) == Success(true) {
        out := Wrote(Built("on", [Bool(info.on)]));
      } else if query.Equals(Str("overload")) == Success(true) {
        out := Wrote(Built("overload", [Int(info.overload)]));
      } else if query.Equals(Str("get")) == Success(true) {
        if !query.Contains("id") {
          out := LoggedError;
        } else {
          match GetItem(message["id"])
          case Failure(e) =>
            out := Raised(e);
          case Success(v) =>
            var (ty, w) := codec.encode(v);
            var morphed := query.Morph(map["value_type" := ty, "value" := w]);
            assert morphed.value.AsQuery() == message["value_type" := ty]["value" := w];
            out := Wrote(Morphed(morphed.value.AsQuery()));
        }
      } else if query.Equals(Str("set")) == Success(true) {
        if !query.Contains("id") || !query.Contains("value_type") || !query.Contains("value") {
          out := LoggedError;
        } else {
          SetItem(message["id"], codec.decode(message["value_type"], message["value"], envGlobals));
          out := Wrote(Built("ok", []));
        }
      } else if query.Equals(Str("call")) == Success(true) {
        if !query.Contains("id") || !query.Contains("args") || !query.Contains("kwargs") {
          out := LoggedError;
        } else {
          match Unpack(message)
          case Failure(e) =>
            out := Raised(e);
          case Success(ak) =>
            var answer := Call(message["id"], ak.0, ak.1);
            match answer
            case Failure(e) =>
              out := Raised(e);
            case Success(v) =>
              var (ty, w) := codec.encode(v);
              out := Wrote(Built("call", [message["id"], ty, w]));
        }
      } else if query.Equals(Str("callasync")) == Success(true) {
        if !query.Contains("id") {
          out := Raised(KeyError(Str("id")));
        } else {
          match Unpack(message)
          case Failure(e) =>
            out := Raised(e);
          case Success(ak) =>
            var res := CallAsync(message["id"], ak.0, ak.1);
            match res
            case Failure(e) =>
              out := Raised(e);
            case Success(handle) =>
              out := Wrote(Built("callasync", [message["id"], Int(handle.id)]));
        }
      } else if query.Equals(Str("resource")) == Success(true) {
        if !query.Contains("id") {
          out := Raised(KeyError(Str("id")));
        } else if !query.Contains("delete") {
          out := Raised(KeyError(Str("delete")));
        } else {
          var id := message["id"];
          var p := Resource(id, message["delete"]);
          match p
          case Failure(e) =>
            out := Raised(e);
          case Success(poll) =>
            match poll
            case WaitsForever =>
              out := Blocked;
            case Yields(v) =>
              var (ty, w) := codec.encode(v);
              out := Wrote(Built("resource", [id, ty, w]));
        }
      } else {
        out := Ignored;
      }
    }
  }
}

=== FILE: discovery.dfy ===
/** Discovery: the endpoint lists that `Box.seek` and `Box.network` hand to
    the network probe, and the groups they build from what answered. The probe
    itself is a parameter: it takes the endpoints and the rate and gives back
    the boxes that answered. */
module Discovery {
  import opened Values
  import Groups

  /** `addr`: one address, or a list or tuple of them. */
  datatype Addresses = OneAddress(address: string) | AddressList(addresses: seq<string>)

  /** `port`: one port for every address, or a tuple with one port per address. */
  datatype Ports = OnePort(port: int) | PortTuple(ports: seq<int>)

  datatype Endpoint = Endpoint(address: string, port: int)

  /** `netMap`: probes the endpoints, `rate` matches per second, and returns
      the boxes that answered. */
  type Probe = (seq<Endpoint>, int) -> seq<Groups.Member>

  function MismatchError(): Value {
    Exc("Exception", Str("Expecting same number of addresses and ports"))
  }

  function ZeroDivision(): Value {
    Exc("ZeroDivisionError", Str("division by zero"))
  }

  /** A single string is a one-element list. */
  function AddressesOf(a: Addresses): (r: seq<string>)
    ensures a.OneAddress? ==> r == [a.address]
    ensures a.AddressList? ==> r == a.addresses
  {
    match a
    case OneAddress(x) => [x]
    case AddressList(xs) => xs
  }

  /** `zip(addrs, ports)` */
  function Zip(addrs: seq<string>, ports: seq<int>): (r: seq<Endpoint>)
    requires |addrs| == |ports|
    ensures |r| == |addrs|
    ensures forall i :: 0 <= i < |r| ==> r[i] == Endpoint(addrs[i], ports[i])
  {
    if addrs == [] then []
    else [Endpoint(addrs[0], ports[0])] + Zip(addrs[1..], ports[1..])
  }

  /** `map(lambda a: (a, port), addrs)` */
  function Broadcast(addrs: seq<string>, port: int): (r: seq<Endpoint>)
    ensures |r| == |addrs|
    ensures forall i :: 0 <= i < |r| ==> r[i] == Endpoint(addrs[i], port)
  {
    if addrs == [] then []
    else [Endpoint(addrs[0], port)] + Broadcast(addrs[1..], port)
  }

  /** The endpoints `seek` probes: address `i` with port `i`, or every address
      with the one port, in address order; a tuple of the wrong length raises. */
  function SeekEndpoints(addr: Addresses, port: Ports): (r: Result<seq<Endpoint>>)
    ensures r.Failure? <==> port.PortTuple? && |AddressesOf(addr)| != |port.ports|
    ensures r.Failure? ==> r.exc == MismatchError()
    ensures r.Success? ==> |r.value| == |AddressesOf(addr)|
    ensures r.Success? ==> forall i :: 0 <= i < |r.value| ==>
              r.value[i].address == AddressesOf(addr)[i] &&
              r.value[i].port == (if port.OnePort? then port.port else port.ports[i])
  {
    var addrs := AddressesOf(addr);
    match port
    case PortTuple(ps) => if |addrs| != |ps| then Failure(MismatchError()) else Success(Zip(addrs, ps))
    case OnePort(p) => Success(Broadcast(addrs, p))
  }

  /** `Box.seek`: the probe's boxes as a group, or None when none answered.
      The length check comes first, then the rate is turned into a delay,
      which fails for a rate of 0. */
  function Seek(addr: Addresses, port: Ports, rate: int, probe: Probe): (r: Result<Option<seq<Groups.Member>>>)
    ensures SeekEndpoints(addr, port).Failure? ==> r == Failure(MismatchError())
    ensures SeekEndpoints(addr, port).Success? && rate == 0 ==> r == Failure(ZeroDivision())
    ensures SeekEndpoints(addr, port).Success? && rate != 0 ==>
              var found := probe(SeekEndpoints(addr, port).value, rate);
              r == Success(if found == [] then None else Some(found))
    ensures r.Success? && r.value.Some? ==> r.value.value != []
  {
    match SeekEndpoints(addr, port)
    case Failure(e) => Failure(e)
    case Success(eps) =>
      if rate == 0 then Failure(ZeroDivision())
      else
        var found := probe(eps, rate);
        Success(if found == [] then None else Some(found))
  }

  // ---------------------------------------------------------------------------
  // The local /24 network

  /** `s.split('.')` */
  function Split(s: string): (r: seq<string>)
    ensures |r| >= 1
    ensures forall k :: 0 <= k < |r| ==> '.' !in r[k]
  {
    if s == [] then [""]
    else
      var rest := Split(s[1..]);
      if s[0] == '.' then [""] + rest
      else [[s[0]] + rest[0]] + rest[1..]
  }

  /** `'.'.join(parts)` */
  function Join(parts: seq<string>): (r: string)
    ensures |parts| >= 1 ==> parts[0] <= r
    ensures |parts| >= 2 ==> '.' in r
  {
    if |parts| == 0 then ""
    else if |parts| == 1 then parts[0]
    else parts[0] + "." + Join(parts[1..])
  }

  /** Joining the pieces of a split gives the string back. */
  lemma {:induction false} JoinSplit(s: string)
    ensures Join(Split(s)) == s
  {
    if s != [] {
      var rest := Split(s[1..]);
      JoinSplit(s[1..]);
      if s[0] == '.' {
        assert Split(s) == [""] + rest;
        assert ([""] + rest)[1..] == rest;
        assert Join(Split(s)) == "" + "." + Join(rest);
      } else {
        var parts := [[s[0]] + rest[0]] + rest[1..];
        assert Split(s) == parts;
        if |rest| == 1 {
          assert Join(parts) == [s[0]] + rest[0];
        } else {
          assert parts[1..] == rest[1..];
          assert Join(parts) == ([s[0]] + rest[0]) + "." + Join(rest[1..]);
          assert Join(rest) == rest[0] + "." + Join(rest[1..]);
        }
        assert s == [s[0]] + s[1..];
      }
    }
  }

  /** The last piece is separated from the others by the last dot. */
  lemma {:induction false} JoinLast(parts: seq<string>)
    requires |parts| >= 2
    ensures Join(parts) == Join(parts[..|parts| - 1]) + "." + parts[|parts| - 1]
  {
    var n := |parts|;
    if n == 2 {
      assert parts[..1] == [parts[0]];
      assert parts[1..] == [parts[1]];
    } else {
      JoinLast(parts[1..]);
      assert parts[1..][..n - 2] == parts[..n - 1][1..];
      assert parts[..n - 1][0] == parts[0];
    }
  }

  /** `'.'.join(ip.split('.')[0:-1]) + "."` */
  function Prefix(ip: string): (p: string)
    ensures |p| >= 1 && p[|p| - 1] == '.'
  {
    var parts := Split(ip);
    Join(parts[..|parts| - 1]) + "."
  }

  /** The prefix is the address up to and including its last dot; an address
      without a dot gives just ".". */
  lemma PrefixUpToLastDot(ip: string)
    ensures '.' !in ip ==> Prefix(ip) == "."
    ensures '.' in ip ==> var p := Prefix(ip);
              |p| <= |ip| && p == ip[..|p|] && p[|p| - 1] == '.' && '.' !in ip[|p|..]
  {
    var parts := Split(ip);
    JoinSplit(ip);
    if |parts| == 1 {
      assert ip == parts[0];
      assert parts[..0] == [];
    } else {
      JoinLast(parts);
      var p := Prefix(ip);
      var last := parts[|parts| - 1];
      assert ip == p + last;
      assert ip[..|p|] == p && ip[|p|..] == last;
      assert '.' in ip by {
        assert ip[|p| - 1] == '.';
      }
    }
  }

  /** A digit character. */
  function Digit(d: nat): (c: char)
    requires d < 10
    ensures '0' <= c <= '9' && DigitValue(c) == d
  {
    "0123456789"[d]
  }

  function DigitValue(c: char): nat {
    if '0' <= c <= '9' then (c as int - '0' as int) as nat else 0
  }

  /** `str(n)` for a natural number. */
  function Decimal(n: nat): (s: string)
    ensures |s| >= 1
    ensures forall c :: c in s ==> '0' <= c <= '9'
    ensures n >= 10 ==> s[0] != '0'
    ensures n < 10 <==> |s| == 1
    decreases n
  {
    if n < 10 then [Digit(n)] else Decimal(n / 10) + [Digit(n % 10)]
  }

  /** `int(s)` for a string of digits. */
  function Parse(s: string): nat {
    if s == [] then 0 else Parse(s[..|s| - 1]) * 10 + DigitValue(s[|s| - 1])
  }

  /** The decimal text of a number reads back as that number. */
  lemma {:induction false} ParseDecimal(n: nat)
    ensures Parse(Decimal(n)) == n
    decreases n
  {
    var s := Decimal(n);
    if n < 10 {
      assert s[..0] == [];
      assert DigitValue(Digit(n)) == n;
    } else {
      ParseDecimal(n / 10);
      assert s[..|s| - 1] == Decimal(n / 10);
      assert DigitValue(Digit(n % 10)) == n % 10;
    }
  }

  /** The 256 host addresses of the /24 the prefix names, in order. */
  function Candidates(prefix: string): (r: seq<string>)
    ensures |r| == 256
    ensures forall k :: 0 <= k < 256 ==> r[k] == prefix + Decimal(k)
  {
    seq(256, k requires 0 <= k < 256 => prefix + Decimal(k))
  }

  /** No candidate is probed twice. */
  lemma CandidatesDistinct(prefix: string, a: nat, b: nat)
    requires a < b < 256
    ensures Candidates(prefix)[a] != Candidates(prefix)[b]
  {
    var c := Candidates(prefix);
    if c[a] == c[b] {
      assert c[a][|prefix|..] == Decimal(a);
      assert c[b][|prefix|..] == Decimal(b);
      ParseDecimal(a);
      ParseDecimal(b);
    }
  }

  /** The endpoints `network` probes: every candidate of the local address's
      /24 with the one port, `prefix + str(k)` for k = 0..255 in order. */
  function NetworkEndpoints(port: int, thisIp: string): (r: seq<Endpoint>)
    ensures |r| == 256
    ensures forall k :: 0 <= k < 256 ==> r[k] == Endpoint(Prefix(thisIp) + Decimal(k), port)
  {
    var eps := SeekEndpoints(AddressList(Candidates(Prefix(thisIp))), OnePort(port));
    eps.value
  }

  /** `Box.network`: probes the local /24 through `seek`; the name filter runs
      only when some box answered, so a filter that drops every box leaves an
      empty group rather than None. */
  function Network(port: int, filter: Option<string -> bool>, rate: int, thisIp: string, probe: Probe)
    : (r: Result<Option<seq<Groups.Member>>>)
    ensures rate == 0 <==> r.Failure?
    ensures r.Failure? ==> r.exc == ZeroDivision()
    ensures rate != 0 && probe(NetworkEndpoints(port, thisIp), rate) == [] ==> r == Success(None)
    ensures rate != 0 && probe(NetworkEndpoints(port, thisIp), rate) != [] ==>
              var found := probe(NetworkEndpoints(port, thisIp), rate);
              r == Success(Some(if filter.Some? then Groups.KeepNamed(found, filter.value) else found))
  {
    var candidates := Candidates(Prefix(thisIp));
    match Seek(AddressList(candidates), OnePort(port), rate, probe)
    case Failure(e) => Failure(e)
    case Success(group) =>
      if filter.Some? && group.Some? then Success(Some(Groups.KeepNamed(group.value, filter.value)))
      else Success(group)
  }
}

=== FILE: groups.dfy ===
/** BoxGroup: broadcast operations over a collection of boxes and the spread
    algorithm that hands a batch of functions to the least loaded live boxes,
    round robin. A member is a record of what routing needs from a box (name,
    liveness, load) and the box's own state; the group keeps its members in a
    sequence, which fixes the iteration order. */
module Groups {
  import opened Values
  import Boxes

  datatype Member = Member(name: string, on: bool, overload: int, state: Boxes.BoxState)

  /** A FunctionWrapper: a named function together with the arguments to call it with. */
  datatype FunctionWrapper = FunctionWrapper(name: string, code: nat, args: seq<Value>, kwargs: map<string, Value>)

  /** The `function` argument of `spread`: one wrapper or a list of them. */
  datatype Functions = Single(fn: FunctionWrapper) | Batch(fns: seq<FunctionWrapper>)

  /** What a broadcast returns: None, one value, or a list of values. */
  datatype Answer = Nothing | One(v: Value) | Several(vs: seq<Value>)

  function NoBoxes(): Value {
    Exc("Exception", Str("No boxes available"))
  }

  /** `x.call(fn, *args, **kwargs)` on one member, once the arguments bind. */
  function CallOn(m: Member, fn: Value, args: seq<Value>, kwargs: map<string, Value>, run: Interp): (r: Value)
    ensures Boxes.KeywordsBind(kwargs) ==>
              Boxes.CallBox(m.state.registry, BoxRef(m.name), fn, args, kwargs, run) == Success(r)
  {
    Boxes.Invoke(m.state.registry, BoxRef(m.name), fn, args, kwargs, run)
  }

  /** `x[k] = v` on one member. */
  function SetItemOn(m: Member, k: Value, v: Value): (r: Member)
    ensures r.state.registry == m.state.registry[k := v]
    ensures r.name == m.name && r.on == m.on && r.overload == m.overload
    ensures r.state.nextId == m.state.nextId && r.state.resources == m.state.resources
  {
    m.(state := m.state.(registry := m.state.registry[k := v]))
  }

  /** `res[0] if len(res) == 1 else res`: a scalar exactly when there is one result. */
  function Shape(res: seq<Value>): (a: Answer)
    ensures a.One? <==> |res| == 1
    ensures a.One? ==> a.v == res[0]
    ensures !a.One? ==> a == Several(res)
  {
    if |res| == 1 then One(res[0]) else Several(res)
  }

  // ---------------------------------------------------------------------------
  // filter

  /** The members whose name passes `keep`, in their order. */
  function KeepNamed(ms: seq<Member>, keep: string -> bool): (r: seq<Member>)
    ensures |r| <= |ms|
    ensures forall m :: m in r ==> m in ms && keep(m.name)
    ensures forall m :: m in ms && keep(m.name) ==> m in r
  {
    if ms == [] then []
    else (if keep(ms[0].name) then [ms[0]] else []) + KeepNamed(ms[1..], keep)
  }

  /** `self -= ln` */
  function Minus(ms: seq<Member>, ln: set<Member>): (r: seq<Member>)
    ensures |r| <= |ms|
    ensures forall m :: m in r <==> m in ms && m !in ln
  {
    if ms == [] then []
    else (if ms[0] in ln then [] else [ms[0]]) + Minus(ms[1..], ln)
  }

  /** Removing the collected failures is the same as keeping the passes. */
  lemma {:induction false} MinusFailuresKeepsPasses(ms: seq<Member>, ln: set<Member>, keep: string -> bool)
    requires forall m :: m in ms ==> (m in ln <==> !keep(m.name))
    ensures Minus(ms, ln) == KeepNamed(ms, keep)
  {
    if ms != [] {
      MinusFailuresKeepsPasses(ms[1..], ln, keep);
    }
  }

  // ---------------------------------------------------------------------------
  // spread: live members, sorted by load

  /** The positions of the live members, in group order. */
  function Eligible(ms: seq<Member>): (r: seq<nat>)
    ensures forall k :: 0 <= k < |r| ==> r[k] < |ms| && ms[r[k]].on
    ensures forall i :: 0 <= i < |ms| && ms[i].on ==> i in r
    ensures forall a, b :: 0 <= a < b < |r| ==> r[a] < r[b]
  {
    if |ms| == 0 then []
    else Eligible(ms[..|ms| - 1]) + (if ms[|ms| - 1].on then [|ms| - 1] else [])
  }

  predicate Positions(ms: seq<Member>, s: seq<nat>) {
    forall k :: 0 <= k < |s| ==> s[k] < |ms|
  }

  predicate SortedByLoad(ms: seq<Member>, s: seq<nat>)
    requires Positions(ms, s)
  {
    forall a, b :: 0 <= a < b < |s| ==> ms[s[a]].overload <= ms[s[b]].overload
  }

  /** The positions in `s` whose member has load `k`, in the order of `s`. */
  function WithLoad(ms: seq<Member>, s: seq<nat>, k: int): seq<nat>
    requires Positions(ms, s)
  {
    if s == [] then []
    else (if ms[s[0]].overload == k then [s[0]] else []) + WithLoad(ms, s[1..], k)
  }

  /** Puts `i` in front of the first position whose load is not lower. */
  function Insert(ms: seq<Member>, i: nat, s: seq<nat>): (r: seq<nat>)
    requires i < |ms| && Positions(ms, s)
    ensures Positions(ms, r)
    ensures multiset(r) == multiset(s) + multiset{i}
  {
    if s == [] then [i]
    else if ms[i].overload <= ms[s[0]].overload then [i] + s
    else
      assert s == [s[0]] + s[1..];
      [s[0]] + Insert(ms, i, s[1..])
  }

  /** `sorted(boxes, key=overload)`, written as an insertion sort. */
  function ByLoad(ms: seq<Member>, s: seq<nat>): (r: seq<nat>)
    requires Positions(ms, s)
    ensures Positions(ms, r)
    ensures multiset(r) == multiset(s)
  {
    if s == [] then []
    else
      assert s == [s[0]] + s[1..];
      Insert(ms, s[0], ByLoad(ms, s[1..]))
  }

  /** A lower bound on the loads of `s` and of `i` bounds the loads after insertion. */
  lemma {:induction false} InsertKeepsLowerBound(ms: seq<Member>, i: nat, s: seq<nat>, low: int)
    requires i < |ms| && Positions(ms, s) && low <= ms[i].overload
    requires forall c :: 0 <= c < |s| ==> low <= ms[s[c]].overload
    ensures forall c :: 0 <= c < |Insert(ms, i, s)| ==> low <= ms[Insert(ms, i, s)[c]].overload
  {
    if s != [] && ms[i].overload > ms[s[0]].overload {
      InsertKeepsLowerBound(ms, i, s[1..], low);
      var r := Insert(ms, i, s[1..]);
      assert Insert(ms, i, s) == [s[0]] + r;
    }
  }

  /** A position no heavier than every position of a sorted list can go in front. */
  lemma ConsKeepsSorted(ms: seq<Member>, x: nat, r: seq<nat>)
    requires x < |ms| && Positions(ms, r) && SortedByLoad(ms, r)
    requires forall c :: 0 <= c < |r| ==> ms[x].overload <= ms[r[c]].overload
    ensures Positions(ms, [x] + r) && SortedByLoad(ms, [x] + r)
  {
    var full := [x] + r;
    forall a, b | 0 <= a < b < |full|
      ensures ms[full[a]].overload <= ms[full[b]].overload
    {
      assert full[b] == r[b - 1];
      if a > 0 {
        assert full[a] == r[a - 1];
      }
    }
  }

  lemma {:induction false} InsertKeepsSorted(ms: seq<Member>, i: nat, s: seq<nat>)
    requires i < |ms| && Positions(ms, s) && SortedByLoad(ms, s)
    ensures SortedByLoad(ms, Insert(ms, i, s))
  {
    if s != [] && ms[i].overload > ms[s[0]].overload {
      var tail := s[1..];
      InsertKeepsSorted(ms, i, tail);
      forall c | 0 <= c < |tail|
        ensures ms[s[0]].overload <= ms[tail[c]].overload
      {
        assert tail[c] == s[c + 1];
      }
      InsertKeepsLowerBound(ms, i, tail, ms[s[0]].overload);
      ConsKeepsSorted(ms, s[0], Insert(ms, i, tail));
    }
  }

  /** The sort is ascending by load. */
  lemma {:induction false} ByLoadSorted(ms: seq<Member>, s: seq<nat>)
    requires Positions(ms, s)
    ensures SortedByLoad(ms, ByLoad(ms, s))
  {
    if s != [] {
      ByLoadSorted(ms, s[1..]);
      InsertKeepsSorted(ms, s[0], ByLoad(ms, s[1..]));
    }
  }

  /** `WithLoad` of a sequence with a known head. */
  lemma WithLoadCons(ms: seq<Member>, x: nat, t: seq<nat>, k: int)
    requires x < |ms| && Positions(ms, t)
    ensures WithLoad(ms, [x] + t, k) == (if ms[x].overload == k then [x] else []) + WithLoad(ms, t, k)
  {
    assert ([x] + t)[1..] == t;
  }

  lemma {:induction false} InsertWithLoad(ms: seq<Member>, i: nat, s: seq<nat>, k: int)
    requires i < |ms| && Positions(ms, s)
    ensures WithLoad(ms, Insert(ms, i, s), k) == (if ms[i].overload == k then [i] else []) + WithLoad(ms, s, k)
  {
    if s == [] {
      WithLoadCons(ms, i, [], k);
    } else if ms[i].overload <= ms[s[0]].overload {
      WithLoadCons(ms, i, s, k);
    } else {
      var rest := Insert(ms, i, s[1..]);
      InsertWithLoad(ms, i, s[1..], k);
      WithLoadCons(ms, s[0], rest, k);
      assert s == [s[0]] + s[1..];
      WithLoadCons(ms, s[0], s[1..], k);
    }
  }

  /** The sort is stable: among members of equal load, the group order stays. */
  lemma {:induction false} ByLoadStable(ms: seq<Member>, s: seq<nat>, k: int)
    requires Positions(ms, s)
    ensures WithLoad(ms, ByLoad(ms, s), k) == WithLoad(ms, s, k)
  {
    if s != [] {
      ByLoadStable(ms, s[1..], k);
      InsertWithLoad(ms, s[0], ByLoad(ms, s[1..]), k);
    }
  }

  /** The boxes `spread` deals to: the live members, least loaded first. */
  function Order(ms: seq<Member>): (r: seq<nat>)
    ensures Positions(ms, r)
  {
    ByLoad(ms, Eligible(ms))
  }

  /** The deal order holds every live member once and no other, ascending by
      load, and keeps group order among equal loads. */
  lemma OrderIsLiveMembersByLoad(ms: seq<Member>, k: int)
    ensures forall i :: i in Order(ms) <==> 0 <= i < |ms| && ms[i].on
    ensures forall i :: i in Order(ms) ==> multiset(Order(ms))[i] == 1
    ensures SortedByLoad(ms, Order(ms))
    ensures WithLoad(ms, Order(ms), k) == WithLoad(ms, Eligible(ms), k)
  {
    var e := Eligible(ms);
    ByLoadSorted(ms, e);
    ByLoadStable(ms, e, k);
    forall i | i in Order(ms) ensures 0 <= i < |ms| && ms[i].on && multiset(Order(ms))[i] == 1 {
      assert i in multiset(e);
      DistinctOnce(e, i);
    }
    forall i | 0 <= i < |ms| && ms[i].on ensures i in Order(ms) {
      assert i in multiset(e);
    }
  }

  /** In a strictly increasing sequence every element occurs once. */
  lemma {:induction false} DistinctOnce(s: seq<nat>, x: nat)
    requires forall a, b :: 0 <= a < b < |s| ==> s[a] < s[b]
    requires x in s
    ensures multiset(s)[x] == 1
  {
    if s[0] == x {
      assert x !in s[1..];
      assert s == [s[0]] + s[1..];
    } else {
      DistinctOnce(s[1..], x);
      assert s == [s[0]] + s[1..];
    }
  }

  /** The first function goes to a live member no other live member undercuts. */
  lemma FirstTargetIsLeastLoaded(ms: seq<Member>)
    requires Order(ms) != []
    ensures var t := Order(ms)[0]; ms[t].on && forall j :: 0 <= j < |ms| && ms[j].on ==> ms[t].overload <= ms[j].overload
  {
    OrderIsLiveMembersByLoad(ms, 0);
    var o := Order(ms);
    forall j | 0 <= j < |ms| && ms[j].on ensures ms[o[0]].overload <= ms[j].overload {
      var b :| 0 <= b < |o| && o[b] == j;
      if b > 0 {
        assert ms[o[0]].overload <= ms[o[b]].overload;
      }
    }
  }

  /** Boxes with loads [5, 1, 3] are dealt to as positions 1, 2, 0. */
  lemma DealOrderExample(ms: seq<Member>)
    requires |ms| == 3 && ms[0].on && ms[1].on && ms[2].on
    requires ms[0].overload == 5 && ms[1].overload == 1 && ms[2].overload == 3
    ensures Order(ms) == [1, 2, 0]
  {
    AllLiveAreEligible(ms);
    LighterPairStays(ms);
    HeaviestGoesLast(ms);
    assert [0, 1, 2][1..] == [1, 2];
  }

  lemma LighterPairStays(ms: seq<Member>)
    requires |ms| == 3 && ms[1].overload == 1 && ms[2].overload == 3
    ensures ByLoad(ms, [1, 2]) == [1, 2]
  {
    assert [1, 2][1..] == [2] && [2][1..] == [];
    assert ByLoad(ms, [2]) == [2];
  }

  lemma HeaviestGoesLast(ms: seq<Member>)
    requires |ms| == 3 && ms[0].overload == 5 && ms[1].overload == 1 && ms[2].overload == 3
    ensures Insert(ms, 0, [1, 2]) == [1, 2, 0]
  {
    assert [1, 2][1..] == [2] && [2][1..] == [];
    assert Insert(ms, 0, [2]) == [2, 0];
  }

  lemma AllLiveAreEligible(ms: seq<Member>)
    requires |ms| == 3 && ms[0].on && ms[1].on && ms[2].on
    ensures Eligible(ms) == [0, 1, 2]
  {
    assert ms[..2][..1][..0] == [];
    assert Eligible(ms[..2][..1]) == [0];
    assert Eligible(ms[..2]) == [0, 1];
  }

  // ---------------------------------------------------------------------------
  // spread: dealing the functions out

  function FunctionList(f: Functions): (fns: seq<FunctionWrapper>)
    ensures f.Single? ==> fns == [f.fn]
    ensures f.Batch? ==> fns == f.fns
  {
    match f
    case Single(fn) => [fn]
    case Batch(fns) => fns
  }

  /** `target[fn.name] = fn`: the wrapper is stored as a plain callable. */
  function Register(ms: seq<Member>, j: nat, fn: FunctionWrapper): (r: seq<Member>)
    requires j < |ms|
    ensures |r| == |ms|
    ensures r[j] == SetItemOn(ms[j], Str(fn.name), Func(fn.code, false))
    ensures forall i :: 0 <= i < |ms| && i != j ==> r[i] == ms[i]
  {
    ms[j := SetItemOn(ms[j], Str(fn.name), Func(fn.code, false))]
  }

  /** The group after the first `k` functions were registered, function `i`
      on the member at `order[i % |order|]`. Only registries change. */
  function Assigned(ms: seq<Member>, fns: seq<FunctionWrapper>, order: seq<nat>, k: nat): (r: seq<Member>)
    requires Positions(ms, order) && order != [] && k <= |fns|
    ensures |r| == |ms|
    decreases k
  {
    if k == 0 then ms
    else Register(Assigned(ms, fns, order, k - 1), order[(k - 1) % |order|], fns[k - 1])
  }

  /** Registering touches registries only: every member keeps its name, its
      liveness, its load and its pending results. */
  lemma {:induction false} AssignedKeepsRouting(ms: seq<Member>, fns: seq<FunctionWrapper>, order: seq<nat>, k: nat, j: nat)
    requires Positions(ms, order) && order != [] && k <= |fns| && j < |ms|
    ensures var r := Assigned(ms, fns, order, k);
            r[j].name == ms[j].name && r[j].on == ms[j].on && r[j].overload == ms[j].overload &&
            r[j].state.nextId == ms[j].state.nextId && r[j].state.resources == ms[j].state.resources
  {
    if k > 0 {
      AssignedKeepsRouting(ms, fns, order, k - 1, j);
    }
  }

  /** Function `i` is registered on member `order[i % |order|]` under its name,
      unless a later function with the same name went to the same member. */
  lemma {:induction false} AssignedDelivers(ms: seq<Member>, fns: seq<FunctionWrapper>, order: seq<nat>, i: nat, k: nat)
    requires Positions(ms, order) && order != [] && i < k <= |fns|
    requires forall i' :: i < i' < k && order[i' % |order|] == order[i % |order|] ==> fns[i'].name != fns[i].name
    ensures var t := order[i % |order|];
            Str(fns[i].name) in Assigned(ms, fns, order, k)[t].state.registry &&
            Assigned(ms, fns, order, k)[t].state.registry[Str(fns[i].name)] == Func(fns[i].code, false)
  {
    if k - 1 > i {
      AssignedDelivers(ms, fns, order, i, k - 1);
    }
  }

  /** Registration leaves alone every registry entry of a member under a key
      that no function dealt to that member carries as its name. */
  lemma {:induction false} AssignedKeepsOtherEntries(ms: seq<Member>, fns: seq<FunctionWrapper>, order: seq<nat>, k: nat, j: nat, key: Value)
    requires Positions(ms, order) && order != [] && k <= |fns| && j < |ms|
    requires forall i :: 0 <= i < k && order[i % |order|] == j ==> Str(fns[i].name) != key
    ensures var reg := Assigned(ms, fns, order, k)[j].state.registry;
            (key in reg <==> key in ms[j].state.registry) &&
            (key in reg ==> reg[key] == ms[j].state.registry[key])
  {
    if k > 0 {
      AssignedKeepsOtherEntries(ms, fns, order, k - 1, j, key);
    }
  }

  /** A member `order` never names keeps its state. */
  lemma {:induction false} AssignedLeavesOthers(ms: seq<Member>, fns: seq<FunctionWrapper>, order: seq<nat>, k: nat, j: nat)
    requires Positions(ms, order) && order != [] && k <= |fns| && j < |ms| && j !in order
    ensures Assigned(ms, fns, order, k)[j] == ms[j]
  {
    if k > 0 {
      AssignedLeavesOthers(ms, fns, order, k - 1, j);
      assert order[(k - 1) % |order|] in order;
    }
  }

  /** The position of the first wrapper whose keyword arguments do not bind
      to `call(self, name, ...)`, or the number of wrappers when all bind. */
  function FirstUnbound(fns: seq<FunctionWrapper>): (k: nat)
    ensures k <= |fns|
    ensures forall i :: 0 <= i < k ==> Boxes.KeywordsBind(fns[i].kwargs)
    ensures k < |fns| ==> !Boxes.KeywordsBind(fns[k].kwargs)
  {
    if fns == [] then 0
    else if !Boxes.KeywordsBind(fns[0].kwargs) then 0
    else 1 + FirstUnbound(fns[1..])
  }

  /** The loop of `spread` raises: it calls, and some call does not bind. */
  predicate Aborts(fns: seq<FunctionWrapper>, mode: int) {
    mode != 0 && FirstUnbound(fns) < |fns|
  }

  /** How many functions the loop of `spread` registers or calls: all of them,
      or those up to and including the first call that does not bind. */
  function Handled(fns: seq<FunctionWrapper>, mode: int): (n: nat)
    ensures n <= |fns|
    ensures !Aborts(fns, mode) ==> n == |fns|
    ensures Aborts(fns, mode) ==> n == FirstUnbound(fns) + 1
  {
    if Aborts(fns, mode) then FirstUnbound(fns) + 1 else |fns|
  }

  /** A loop that reaches an unbound call after only bound ones aborts there. */
  lemma StopsAt(fns: seq<FunctionWrapper>, mode: int, i: nat)
    requires mode != 0 && i < |fns| && !Boxes.KeywordsBind(fns[i].kwargs)
    requires forall j :: 0 <= j < i ==> Boxes.KeywordsBind(fns[j].kwargs)
    ensures Aborts(fns, mode) && Handled(fns, mode) == i + 1
  {
    assert FirstUnbound(fns) == i;
  }

  /** A loop whose calls all bind does not abort. */
  lemma RunsThrough(fns: seq<FunctionWrapper>, mode: int)
    requires forall j :: 0 <= j < |fns| ==> Boxes.KeywordsBind(fns[j].kwargs)
    ensures !Aborts(fns, mode) && Handled(fns, mode) == |fns|
  {
  }

  /** The results of the calls of `spread`, in function order. In mode 2 the
      function was just registered on its target, so its own result comes back;
      in mode 1 the target runs whatever it holds under that name. */
  function Results(ms: seq<Member>, fns: seq<FunctionWrapper>, order: seq<nat>, mode: int, run: Interp): (r: seq<Value>)
    requires Positions(ms, order) && order != []
    ensures |r| == |fns|
  {
    seq(|fns|, i requires 0 <= i < |fns| =>
      if mode == 2 then Settle(run(fns[i].code, fns[i].args, fns[i].kwargs))
      else CallOn(ms[order[i % |order|]], Str(fns[i].name), fns[i].args, fns[i].kwargs, run))
  }

  /** One round of the `spread` loop: after the optional registration the
      target's call gives the `i`-th result. */
  lemma {:induction false} SpreadStep(ms0: seq<Member>, fns: seq<FunctionWrapper>, order: seq<nat>, mode: int,
                                      run: Interp, i: nat)
    requires Positions(ms0, order) && order != [] && i < |fns| && 0 <= mode < 3
    ensures var before := if mode != 1 then Assigned(ms0, fns, order, i) else ms0;
            var after := if mode != 1 then Register(before, order[i % |order|], fns[i]) else before;
            (mode != 1 ==> after == Assigned(ms0, fns, order, i + 1)) &&
            (mode != 0 ==> CallOn(after[order[i % |order|]], Str(fns[i].name), fns[i].args, fns[i].kwargs, run) ==
                           Results(ms0, fns, order, mode, run)[i])
  {
    var t := order[i % |order|];
    var fn := fns[i];
    if mode != 1 {
      var after := Register(Assigned(ms0, fns, order, i), t, fn);
      assert after[t].state.registry[Str(fn.name)] == Func(fn.code, false);
      assert [] + fn.args == fn.args;
    }
  }

  /** CallOn for each member, in group order. */
  function CallEach(ms: seq<Member>, fn: Value, args: seq<Value>, kwargs: map<string, Value>, run: Interp): (r: seq<Value>)
    ensures |r| == |ms|
    ensures forall i :: 0 <= i < |ms| ==> r[i] == CallOn(ms[i], fn, args, kwargs, run)
  {
    seq(|ms|, i requires 0 <= i < |ms| => CallOn(ms[i], fn, args, kwargs, run))
  }

  /** One member after its own `callasync`. */
  function StartOne(m: Member, fn: Value, args: seq<Value>, kwargs: map<string, Value>, run: Interp): (r: Member)
    ensures r.name == m.name && r.on == m.on && r.overload == m.overload
    ensures r.state.registry == m.state.registry && r.state.nextId == m.state.nextId + 1
    ensures r.state.resources.Keys == m.state.resources.Keys + {m.state.nextId}
    ensures r.state.resources[m.state.nextId] ==
              Boxes.Filled(Boxes.Invoke(m.state.registry, BoxRef(m.name), fn, args, kwargs, run))
    ensures forall id :: id in m.state.resources && id != m.state.nextId ==> r.state.resources[id] == m.state.resources[id]
  {
    m.(state := Boxes.StartCall(m.state, m.name, fn, args, kwargs, run).0)
  }

  /** Each member after its own `callasync`. */
  function StartEach(ms: seq<Member>, fn: Value, args: seq<Value>, kwargs: map<string, Value>, run: Interp): (r: seq<Member>)
    ensures |r| == |ms|
    ensures forall i :: 0 <= i < |ms| ==>
              r[i].name == ms[i].name && r[i].on == ms[i].on && r[i].overload == ms[i].overload &&
              r[i].state.registry == ms[i].state.registry && r[i].state.nextId == ms[i].state.nextId + 1 &&
              r[i].state.resources.Keys == ms[i].state.resources.Keys + {ms[i].state.nextId}
    ensures forall i :: 0 <= i < |ms| ==> r[i].state == Boxes.StartCall(ms[i].state, ms[i].name, fn, args, kwargs, run).0
  {
    seq(|ms|, i requires 0 <= i < |ms| => StartOne(ms[i], fn, args, kwargs, run))
  }

  /** The Resource handles those calls return, in group order. */
  function HandlesOf(ms: seq<Member>): (r: seq<Value>)
    ensures |r| == |ms|
    ensures forall i :: 0 <= i < |ms| ==> r[i] == ResourceRef(ms[i].state.nextId, ms[i].name)
  {
    seq(|ms|, i requires 0 <= i < |ms| => ResourceRef(ms[i].state.nextId, ms[i].name))
  }

  /** The keyword arguments of `set`, as registry entries. */
  function Entries(kw: map<string, Value>): (e: map<Value, Value>)
    ensures forall x :: x in e <==> x.Str? && x.s in kw
    ensures forall x :: x in e ==> e[x] == kw[x.s]
  {
    map k | k in kw :: Str(k) := kw[k]
  }

  /** A member after `x[k] = v` for every keyword argument. */
  function WithItems(m: Member, kw: map<string, Value>): (r: Member)
    ensures r.name == m.name && r.on == m.on && r.overload == m.overload
    ensures r.state.nextId == m.state.nextId && r.state.resources == m.state.resources
    ensures forall k :: k in kw ==> Str(k) in r.state.registry && r.state.registry[Str(k)] == kw[k]
    ensures forall x :: x in m.state.registry && !(x.Str? && x.s in kw) ==>
              x in r.state.registry && r.state.registry[x] == m.state.registry[x]
    ensures forall x :: x in r.state.registry ==> x in m.state.registry || (x.Str? && x.s in kw)
  {
    m.(state := m.state.(registry := m.state.registry + Entries(kw)))
  }

  /** Storing one more keyword argument extends the overlay by that key. */
  lemma WithOneMoreItem(m: Member, kw: map<string, Value>, todo: set<string>, k: string)
    requires k in todo && todo <= kw.Keys
    ensures WithItems(m, kw - (todo - {k})) == SetItemOn(WithItems(m, kw - todo), Str(k), kw[k])
  {
    EntriesOneMore(kw, todo, k);
    OverlayUpdate(m.state.registry, Entries(kw - todo), Str(k), kw[k]);
  }

  lemma EntriesOneMore(kw: map<string, Value>, todo: set<string>, k: string)
    requires k in todo && todo <= kw.Keys
    ensures Entries(kw - (todo - {k})) == Entries(kw - todo)[Str(k) := kw[k]]
  {
    var a, b := kw - (todo - {k}), kw - todo;
    assert a.Keys == b.Keys + {k};
    var ea, eb := Entries(a), Entries(b)[Str(k) := kw[k]];
    forall x ensures x in ea <==> x in eb {
    }
    forall x | x in ea ensures ea[x] == eb[x] {
    }
    assert ea == eb;
  }

  lemma OverlayUpdate(reg: map<Value, Value>, e: map<Value, Value>, x: Value, v: Value)
    ensures reg + e[x := v] == (reg + e)[x := v]
  {
  }

  class BoxGroup {
    var members: seq<Member>

    constructor (ms: seq<Member>)
      ensures members == ms
    {
      members := ms;
    }

    /** `group == None`: holds exactly for the empty group. */
    function EqualsNone(): (r: bool)
      reads this
      ensures r <==> members == []
    {
      |members| == 0
    }

    /** Removes, in place, every member whose name fails `keep`. */
    method Filter(keep: string -> bool)
      modifies this
      ensures members == KeepNamed(old(members), keep)
    {
      var ln: set<Member> := {};
      var i := 0;
      while i < |members|
        invariant 0 <= i <= |members|
        invariant forall m :: m in ln <==> m in members[..i] && !keep(m.name)
      {
        if !keep(members[i].name) {
          ln := ln + {members[i]};
        }
        i := i + 1;
      }
      assert members[..i] == members;
      MinusFailuresKeepsPasses(members, ln, keep);
      members := Minus(members, ln);
    }

    /** A name-to-box snapshot; of two members with one name, the later wins. */
    method Members() returns (result: map<string, Member>)
      ensures result.Keys == set m | m in members :: m.name
      ensures forall k :: 0 <= k < |members| ==>
                (forall j :: k < j < |members| ==> members[j].name != members[k].name) ==>
                result[members[k].name] == members[k]
    {
      result := map[];
      var i := 0;
      while i < |members|
        invariant 0 <= i <= |members|
        invariant result.Keys == set j | 0 <= j < i :: members[j].name
        invariant forall k :: 0 <= k < i ==>
                    (forall j :: k < j < i ==> members[j].name != members[k].name) ==>
                    result[members[k].name] == members[k]
      {
        result := result[members[i].name := members[i]];
        i := i + 1;
      }
      assert forall m :: m in members ==> exists j :: 0 <= j < |members| && members[j] == m;
    }

    /** `set(**kwargs)`: every member stores every keyword argument, and the
        call gives None. `self` is bound positionally, so a keyword argument
        `self` raises TypeError before any member changes. */
    method Set(kwargs: map<string, Value>) returns (r: Result<Value>)
      modifies this
      ensures "self" in kwargs ==> r == Failure(MultipleValues()) && members == old(members)
      ensures "self" !in kwargs ==> r == Success(NoneV)
      ensures |members| == |old(members)|
      ensures "self" !in kwargs ==> forall j :: 0 <= j < |members| ==> members[j] == WithItems(old(members[j]), kwargs)
    {
      if "self" in kwargs {
        return Failure(MultipleValues());
      }
      var todo := kwargs.Keys;
      while todo != {}
        invariant todo <= kwargs.Keys
        invariant |members| == |old(members)|
        invariant forall j :: 0 <= j < |members| ==> members[j] == WithItems(old(members[j]), kwargs - todo)
        decreases todo
      {
        var k :| k in todo;
        SetItemEach(Str(k), kwargs[k]);
        forall j | 0 <= j < |members|
          ensures members[j] == WithItems(old(members[j]), kwargs - (todo - {k}))
        {
          WithOneMoreItem(old(members[j]), kwargs, todo, k);
        }
        todo := todo - {k};
      }
      assert kwargs - {} == kwargs;
      r := Success(NoneV);
    }

    /** `for x in self: x[k] = v`, the inner loop of `set`. */
    method SetItemEach(k: Value, v: Value)
      modifies this
      ensures |members| == |old(members)|
      ensures forall j :: 0 <= j < |members| ==> members[j] == SetItemOn(old(members[j]), k, v)
    {
      var i := 0;
      while i < |members|
        invariant 0 <= i <= |members| == |old(members)|
        invariant forall j :: 0 <= j < i ==> members[j] == SetItemOn(old(members[j]), k, v)
        invariant forall j :: i <= j < |members| ==> members[j] == old(members[j])
      {
        members := members[i := SetItemOn(members[i], k, v)];
        i := i + 1;
      }
    }

    /** `call`: once the arguments bind, every member runs the call; one member
        gives a scalar, any other number a list in group order. */
    method Call(fn: Value, args: seq<Value>, kwargs: map<string, Value>, run: Interp) returns (r: Result<Answer>)
      ensures !Boxes.KeywordsBind(kwargs) ==> r == Failure(MultipleValues())
      ensures Boxes.KeywordsBind(kwargs) ==> r == Success(Shape(CallEach(members, fn, args, kwargs, run)))
    {
      if !Boxes.KeywordsBind(kwargs) {
        return Failure(MultipleValues());
      }
      var res: seq<Value> := [];
      var i := 0;
      while i < |members|
        invariant 0 <= i <= |members|
        invariant res == CallEach(members[..i], fn, args, kwargs, run)
      {
        res := res + [CallOn(members[i], fn, args, kwargs, run)];
        i := i + 1;
      }
      assert members[..i] == members;
      r := Success(Shape(res));
    }

    /** `callasync`: once the arguments bind, every member starts the call and
        hands back its Resource. */
    method CallAsync(fn: Value, args: seq<Value>, kwargs: map<string, Value>, run: Interp) returns (r: Result<Answer>)
      modifies this
      ensures !Boxes.KeywordsBind(kwargs) ==> r == Failure(MultipleValues()) && members == old(members)
      ensures Boxes.KeywordsBind(kwargs) ==>
                members == StartEach(old(members), fn, args, kwargs, run) && r == Success(Shape(HandlesOf(old(members))))
    {
      if !Boxes.KeywordsBind(kwargs) {
        return Failure(MultipleValues());
      }
      ghost var ms0 := members;
      var res: seq<Value> := [];
      var i := 0;
      while i < |members|
        invariant 0 <= i <= |members| == |ms0|
        invariant forall j :: 0 <= j < i ==> members[j] == StartOne(ms0[j], fn, args, kwargs, run)
        invariant forall j :: i <= j < |members| ==> members[j] == ms0[j]
        invariant |res| == i
        invariant forall j :: 0 <= j < i ==> res[j] == ResourceRef(ms0[j].state.nextId, ms0[j].name)
      {
        var m := members[i];
        var (st, handle) := Boxes.StartCall(m.state, m.name, fn, args, kwargs, run);
        res := res + [ResourceRef(handle.id, handle.owner)];
        members := members[i := m.(state := st)];
        i := i + 1;
      }
      assert members == StartEach(ms0, fn, args, kwargs, run);
      assert res == HandlesOf(ms0);
      r := Success(Shape(res));
    }

    /** `spread(function, mode)`: mode is taken modulo 3; with no live member it
        raises. Otherwise function `i` goes to the `i mod n`-th live member in
        ascending load; it is registered there unless the mode is 1 and called
        there unless the mode is 0. A call whose keyword arguments do not bind
        raises out of the loop, after its function was registered. The answer
        is None in mode 0, the single result for a single wrapper, and the list
        of results otherwise. */
    method Spread(work: Functions, mode: int, run: Interp) returns (r: Result<Answer>)
      modifies this
      ensures Order(old(members)) == [] ==> r == Failure(NoBoxes()) && members == old(members)
      ensures Order(old(members)) != [] ==>
                var fns := FunctionList(work);
                var order := Order(old(members));
                var m := mode % 3;
                members == (if m != 1 then Assigned(old(members), fns, order, Handled(fns, m)) else old(members)) &&
                r == (if Aborts(fns, m) then Failure(MultipleValues())
                      else if m == 0 then Success(Nothing)
                      else if work.Single? then Success(One(Results(old(members), fns, order, m, run)[0]))
                      else Success(Several(Results(old(members), fns, order, m, run))))
    {
      var m := mode % 3;
      var fns := FunctionList(work);
      var boxes := Order(members);
      if |boxes| == 0 {
        return Failure(NoBoxes());
      }
      var dealt := Deal(fns, boxes, m, run);
      match dealt
      case Failure(e) =>
        r := Failure(e);
      case Success(ret) =>
        if m == 0 {
          r := Success(Nothing);
        } else if work.Single? {
          r := Success(One(ret[0]));
        } else {
          r := Success(Several(ret));
        }
    }

    /** The loop of `spread`: function `i` goes to `boxes[i % |boxes|]`. */
    method Deal(fns: seq<FunctionWrapper>, boxes: seq<nat>, m: int, run: Interp) returns (r: Result<seq<Value>>)
      requires Positions(members, boxes) && boxes != [] && 0 <= m < 3
      modifies this
      ensures members == if m != 1 then Assigned(old(members), fns, boxes, Handled(fns, m)) else old(members)
      ensures Aborts(fns, m) ==> r == Failure(MultipleValues())
      ensures !Aborts(fns, m) ==> r.Success? && (m != 0 ==> r.value == Results(old(members), fns, boxes, m, run))
    {
      ghost var ms0 := members;
      ghost var all := Results(ms0, fns, boxes, m, run);
      var ret := [];
      var i := 0;
      while i < |fns|
        invariant 0 <= i <= |fns|
        invariant m != 1 ==> members == Assigned(ms0, fns, boxes, i)
        invariant m == 1 ==> members == ms0
        invariant m != 0 ==> |ret| == i && forall j :: 0 <= j < i ==> ret[j] == all[j]
        invariant m != 0 ==> forall j :: 0 <= j < i ==> Boxes.KeywordsBind(fns[j].kwargs)
      {
        var fn := fns[i];
        var t := boxes[i % |boxes|];
        SpreadStep(ms0, fns, boxes, m, run, i);
        if m != 1 {
          members := Register(members, t, fn);
        }
        if m != 0 {
          if !Boxes.KeywordsBind(fn.kwargs) {
            StopsAt(fns, m, i);
            return Failure(MultipleValues());
          }
          var res := CallOn(members[t], Str(fn.name), fn.args, fn.kwargs, run);
          ret := ret + [res];
        }
        i := i + 1;
      }
      if m != 0 {
        RunsThrough(fns, m);
        assert ret == all;
      }
      r := Success(ret);
    }
  }
}

=== FILE: queries.dfy ===
/** The query codec: builders that produce tagged message dictionaries and a
    reader that inspects (and, through `Morph`, updates) one of them. */
module Queries {
  import opened Values

  /** A query is a dictionary from field name to value. */
  type Query = map<string, Value>

  /** `q` carries exactly the given payload keys plus the two metadata keys,
      with `type` and `request` set as a builder's decorator says. */
  predicate Tagged(q: Query, tag: string, isRequest: bool, payload: set<string>) {
    q.Keys == payload + {"type", "request"} &&
    q["type"] == Str(tag) && q["request"] == Bool(isRequest)
  }

  /** The `query` decorator: stamps `type` and `request` onto whatever the
      decorated builder returned. The stamp is applied last, so it wins over
      payload keys of the same name. */
  function Stamp(payload: Query, tag: string, isRequest: bool): (q: Query)
    ensures Tagged(q, tag, isRequest, payload.Keys - {"type", "request"})
    ensures forall k :: k in payload && k != "type" && k != "request" ==> q[k] == payload[k]
  {
    payload["type" := Str(tag)]["request" := Bool(isRequest)]
  }

  // The builders of QueryMaker, one per decorated static method.

  function Ok(): (q: Query)
    ensures Tagged(q, "ok", false, {})
  {
    Stamp(map[], "ok", false)
  }

  function Name(name: string): (q: Query)
    ensures Tagged(q, "name", false, {"value"}) && q["value"] == Str(name)
  {
    Stamp(map["value" := Str(name)], "name", false)
  }

  /** Its decorator passes no flag, so this request goes out as `request = False`. */
  function NameReq(): (q: Query)
    ensures Tagged(q, "name", false, {})
  {
    Stamp(map[], "name", false)
  }

  function GlobalSetReq(id: string, value: Value): (q: Query)
    ensures Tagged(q, "global_set", true, {"id", "value"})
    ensures q["id"] == Str(id) && q["value"] == value
  {
    Stamp(map["id" := Str(id), "value" := value], "global_set", true)
  }

  function GlobalGet(id: string, value: Value): (q: Query)
    ensures Tagged(q, "global_get", false, {"id", "value"})
    ensures q["id"] == Str(id) && q["value"] == value
  {
    Stamp(map["id" := Str(id), "value" := value], "global_get", false)
  }

  function GlobalGetReq(id: string): (q: Query)
    ensures Tagged(q, "global_get", true, {"id"}) && q["id"] == Str(id)
  {
    Stamp(map["id" := Str(id)], "global_get", true)
  }

  function FunctionReq(name: string, code: string): (q: Query)
    ensures Tagged(q, "function", true, {"id", "value"})
    ensures q["id"] == Str(name) && q["value"] == Str(code)
  {
    Stamp(map["id" := Str(name), "value" := Str(code)], "function", true)
  }

  /** The positional arguments travel as a tuple, the keyword arguments as a
      dict. `name` is bound positionally, so a keyword argument `name` is given
      twice and Python raises TypeError before the builder runs. */
  function CallReq(name: string, args: seq<Value>, kwargs: map<string, Value>): (r: Result<Query>)
    ensures r.Failure? <==> "name" in kwargs
    ensures r.Failure? ==> r.exc == MultipleValues()
    ensures r.Success? ==> Tagged(r.value, "call", true, {"id", "args", "kwargs"})
    ensures r.Success? ==>
              r.value["id"] == Str(name) && r.value["args"] == List(args) && r.value["kwargs"] == Dict(kwargs)
  {
    if "name" in kwargs then Failure(MultipleValues())
    else Success(Stamp(map["id" := Str(name), "args" := List(args), "kwargs" := Dict(kwargs)], "call", true))
  }

  function Call(name: string, resource: Value): (q: Query)
    ensures Tagged(q, "call", false, {"id", "value"})
    ensures q["id"] == Str(name) && q["value"] == resource
  {
    Stamp(map["id" := Str(name), "value" := resource], "call", false)
  }

  /** Reader comparison with a string: the `type` field decides, and a query
      without one raises KeyError. */
  function TypeIs(q: Query, s: string): (r: Result<bool>)
    ensures "type" !in q <==> r == Failure(KeyError(Str("type")))
    ensures "type" in q ==> (r == Success(true) <==> q["type"] == Str(s))
  {
    if "type" in q then Success(q["type"] == Str(s)) else Failure(KeyError(Str("type")))
  }

  /** A tagged query compares equal to its tag and to no other string. */
  lemma TaggedReadsAsTag(q: Query, tag: string, isRequest: bool, payload: set<string>, s: string)
    requires Tagged(q, tag, isRequest, payload)
    ensures TypeIs(q, s) == Success(s == tag)
  {
    assert "type" in q;
    assert q["type"] == Str(s) <==> s == tag;
  }

  /** Reading any builder's output, the reader equals that builder's tag and no
      other string. */
  lemma BuildersReadAsTheirTag(s: string, n: string, id: string, v: Value, args: seq<Value>, kwargs: map<string, Value>)
    ensures TypeIs(Ok(), s) == Success(s == "ok")
    ensures TypeIs(Name(n), s) == Success(s == "name")
    ensures TypeIs(NameReq(), s) == Success(s == "name")
    ensures TypeIs(GlobalSetReq(id, v), s) == Success(s == "global_set")
    ensures TypeIs(GlobalGet(id, v), s) == Success(s == "global_get")
    ensures TypeIs(GlobalGetReq(id), s) == Success(s == "global_get")
    ensures TypeIs(FunctionReq(n, id), s) == Success(s == "function")
    ensures "name" !in kwargs ==> TypeIs(CallReq(n, args, kwargs).value, s) == Success(s == "call")
    ensures TypeIs(Call(n, v), s) == Success(s == "call")
  {
    TaggedReadsAsTag(Ok(), "ok", false, {}, s);
    TaggedReadsAsTag(Name(n), "name", false, {"value"}, s);
    TaggedReadsAsTag(NameReq(), "name", false, {}, s);
    TaggedReadsAsTag(GlobalSetReq(id, v), "global_set", true, {"id", "value"}, s);
    TaggedReadsAsTag(GlobalGet(id, v), "global_get", false, {"id", "value"}, s);
    TaggedReadsAsTag(GlobalGetReq(id), "global_get", true, {"id"}, s);
    TaggedReadsAsTag(FunctionReq(n, id), "function", true, {"id", "value"}, s);
    if "name" !in kwargs {
      TaggedReadsAsTag(CallReq(n, args, kwargs).value, "call", true, {"id", "args", "kwargs"}, s);
    }
    TaggedReadsAsTag(Call(n, v), "call", false, {"id", "value"}, s);
  }

  /** `name_req` and `name` cannot be told apart by their metadata: both are
      tagged `name` with `request = False`. */
  lemma NameRequestLooksLikeAnswer(n: string)
    ensures NameReq()["type"] == Name(n)["type"]
    ensures NameReq()["request"] == Name(n)["request"] == Bool(false)
    ensures Name(n) == NameReq()["value" := Str(n)]
  {
  }

  /** QueryReader: wraps one query dictionary. */
  class QueryReader {
    var query: Query

    constructor (q: Query)
      ensures query == q
    {
      query := q;
    }

    /** `reader == o`: against a string, compares the `type` field; against any
        other object, plain identity, which no value shares with the reader. */
    function Equals(o: Value): (r: Result<bool>)
      reads this
      ensures o.Str? ==> r == TypeIs(query, o.s)
      ensures !o.Str? ==> r == Success(false)
    {
      if o.Str? then TypeIs(query, o.s) else Success(false)
    }

    /** `item in reader` */
    function Contains(item: string): (r: bool)
      reads this
      ensures r <==> item in query
    {
      item in query
    }

    /** `reader[item]`; a missing key raises KeyError. */
    function Get(item: string): (r: Result<Value>)
      reads this
      ensures item in query ==> r == Success(query[item])
      ensures item !in query ==> r == Failure(KeyError(Str(item)))
    {
      if item in query then Success(query[item]) else Failure(KeyError(Str(item)))
    }

    /** `reader.value()` */
    function GetValue(): (r: Result<Value>)
      reads this
      ensures r.Success? <==> "value" in query
      ensures r.Success? ==> r.value == query["value"]
    {
      Get("value")
    }

    /** `reader.id()` */
    function GetId(): (r: Result<Value>)
      reads this
      ensures r.Success? <==> "id" in query
      ensures r.Success? ==> r.value == query["id"]
    {
      Get("id")
    }

    /** `reader.query()`: the dictionary that item access and `in` read. */
    function AsQuery(): (r: Query)
      reads this
      ensures forall k :: Contains(k) <==> k in r
      ensures forall k :: Get(k) == if k in r then Success(r[k]) else Failure(KeyError(Str(k)))
    {
      query
    }

    /** `reader.morph(**kw)`: writes each given field in place and returns the
        reader itself. `self` is bound positionally, so a keyword argument
        `self` makes Python raise TypeError before anything is written. */
    method Morph(kw: map<string, Value>) returns (r: Result<QueryReader>)
      modifies this
      ensures "self" in kw ==> r == Failure(MultipleValues()) && query == old(query)
      ensures "self" !in kw ==> r == Success(this)
      ensures "self" !in kw ==> AsQuery().Keys == old(query).Keys + kw.Keys
      ensures "self" !in kw ==> forall k :: k in kw ==> AsQuery()[k] == kw[k]
      ensures "self" !in kw ==> forall k :: k in old(query) && k !in kw ==> AsQuery()[k] == old(query)[k]
    {
      if "self" in kw {
        return Failure(MultipleValues());
      }
      var todo := kw.Keys;
      while todo != {}
        invariant todo <= kw.Keys
        invariant query.Keys == old(query).Keys + (kw.Keys - todo)
        invariant forall k :: k in kw && k !in todo ==> query[k] == kw[k]
        invariant forall k :: k in old(query) && k !in kw ==> query[k] == old(query)[k]
        invariant forall k :: k in old(query) && k in todo ==> query[k] == old(query)[k]
        decreases todo
      {
        var x :| x in todo;
        query := query[x := kw[x]];
        todo := todo - {x};
      }
      r := Success(this);
    }
  }

  /** Reading a query through a reader agrees with the builders: every
      declared payload field of `call_req` can be retrieved. */
  lemma ReaderRetrievesCallReqFields(r: QueryReader, n: string, args: seq<Value>, kwargs: map<string, Value>)
    requires CallReq(n, args, kwargs) == Success(r.query)
    ensures r.Equals(Str("call")) == Success(true)
    ensures r.Contains("id") && r.Contains("args") && r.Contains("kwargs")
    ensures r.GetId() == Success(Str(n))
    ensures r.Get("args") == Success(List(args)) && r.Get("kwargs") == Success(Dict(kwargs))
    ensures !r.Contains("value") && r.GetValue().Failure?
  {
  }
}

=== FILE: values.dfy ===
/** The Python objects that boxes store, pass and return, as far as the model
    needs to tell them apart. */
module Values {

  /** A Python value. Lists and tuples are both `List`; an exception object is
      `Exc` (its class name and its argument). */
  datatype Value =
    | NoneV
    | Bool(b: bool)
    | Int(i: int)
    | Str(s: string)
    | List(items: seq<Value>)
    | Dict(entries: map<string, Value>)
    | Func(code: nat, useSelf: bool)      // a callable; `useSelf` is the `__use_self__` flag
    | BoxRef(box: string)                 // a reference to the Box with that name
    | ResourceRef(id: nat, owner: string) // a Resource handle
    | Exc(cls: string, arg: Value)

  /** What running a callable does: it returns a value or raises an exception. */
  datatype Outcome = Returns(value: Value) | Raises(exc: Value)

  /** The behaviour of every callable, by code: the functions themselves are
      outside the model, so every operation that runs one takes this as a
      parameter. */
  type Interp = (nat, seq<Value>, map<string, Value>) -> Outcome

  datatype Option<T> = None | Some(value: T)

  /** A computation that either succeeds or raises a Python exception. */
  datatype Result<T> = Success(value: T) | Failure(exc: Value)

  function KeyError(key: Value): Value {
    Exc("KeyError", key)
  }

  function TypeError(message: string): Value {
    Exc("TypeError", Str(message))
  }

  /** A keyword argument that names a parameter already bound positionally. */
  function MultipleValues(): Value {
    TypeError("got multiple values for argument")
  }

  /** The value a caught exception or a normal return leaves behind. */
  function Settle(o: Outcome): Value {
    match o
    case Returns(v) => v
    case Raises(e) => e
  }

  /** Python truthiness: false exactly for None, False, 0 and the empty
      string, sequence and dictionary. */
  function Truthy(v: Value): (r: bool)
    ensures !r <==> v in {NoneV, Bool(false), Int(0), Str(""), List([]), Dict(map[])}
  {
    match v
    case NoneV => false
    case Bool(b) => b
    case Int(i) => i != 0
    case Str(s) => s != []
    case List(xs) => xs != []
    case Dict(m) => |m| != 0
    case _ => true
  }
}
